=== FILE: README.md ===
# U3V camera calibration tool: the integer core in Dafny

The calibration tool captures frames from one or two USB3 Vision cameras. It
previews them live and dumps them to `.bin` files. Later, an offline converter
turns those dumps into images or a video. This project models the integer and
sequence logic underneath, and proves what that logic promises.

- **Pixel-format catalog** (`PixelFormat`). The `pfnc` table of utils.py and
  everything derived from it:
  - the byte-aligned storage depth;
  - the left-align shift and coefficient;
  - the acquisition block name;
  - the Bayer colour pattern;
  - the simulated payload size.
- **Offline decoding** (`SimpleScan`, `GenDCScan`, `Reconstruct`,
  `Conversion`):
  - the fixed-stride scanner for plain dumps;
  - the payload-stride scanner for GenDC containers;
  - the per-sample bit-depth reconstruction and the per-record output step;
  - the extension gate, the numeric file ordering for video, and the
    group-directory rename rule.
- **Live hand-off** (`FrameQueue`, `Acquisition`, `LiveView`), as sequential
  steps rather than threads:
  - the display's poll of the shared queue (redirect flush, watermark flush
    above 50 items, non-blocking FIFO take);
  - the capture loop's iteration (one tagged put per pass, and a pipeline
    rebuild on each edge of the save flag);
  - the 2-D preview's descriptor slicing and 8-bit mapping.

Support modules:

- `Wrappers` holds `Option` and `Result`.
- `Bytes` holds little-endian integers and numpy's `uint8`/`uint16` element
  view of a byte buffer, with its encode/decode round trips.
- `Text` holds Python's `str(n)`, `int(s)`, `startswith`, `endswith` and
  `str.replace`.

The id slot of a plain dump takes `32 // required_bit` elements
(convert.py:121, 377): 4 for 8-bit storage and 2 for 16-bit storage, the
4-byte id in either case. `SimpleScan.Layout.Slide` models exactly that.

## Model

| member | source | states |
|---|---|---|
| PixelFormat.Lookup | utils.py:22-33 | a name is found only as the format it spells; anything else is the `KeyError` |
| PixelFormat.LookupName | utils.py:22-33 | every catalog name is found, and found as itself |
| PixelFormat.AlignedDepth | utils.py:271-276 | the storage depth is the least multiple of 8 that holds the native depth |
| PixelFormat.RequiredBitDepth | utils.py:271-276 | `required_bit_depth` is a multiple of 8, at least the depth and below depth + 8; unknown names raise `KeyError` |
| PixelFormat.RequiredBitDepthValues | utils.py:271-276 | the 8-bit formats give 8; every 10-, 12- and 16-bit format gives 16, stored as `uint16` |
| PixelFormat.BitWidth | utils.py:289-290 | `get_bit_width` is the table's native depth; unknown names raise `KeyError` |
| PixelFormat.NumBitShift | utils.py:285-286 | the shift lies in 0..7 and is 0 exactly for whole-byte depths; unknown names raise `KeyError` |
| PixelFormat.ShiftCompletesWidth | utils.py:285-290 | width plus shift equals the storage depth for every known name; the shift is 0 exactly for 8- and 16-bit formats |
| PixelFormat.Storage | convert.py:112-115 | the numpy element width used for a format is its storage depth |
| PixelFormat.CoefLeftAligns | convert.py:35-37 | `coef * 2^depth == 2^required`, so the coefficient moves the top native bit to the top storage bit; it is 1 exactly when no shift is needed |
| PixelFormat.BlockName | utils.py:279-282 | the block name starts `image_io_u3v_cameraN_u`; an unknown name raises `KeyError` |
| PixelFormat.BlockNameValues | utils.py:279-282 | the block is `..._u8x2` for 8-bit formats and `..._u16x2` for all others, whatever the device count; it always ends in "x2" |
| PixelFormat.DisplayModeOf | utils.py:112-119 | colour iff the name starts with "Bayer"; "BayerBG" gives BGGR, "BayerRG" gives RGGB; other Bayer names get no pattern |
| PixelFormat.DisplayModeOfCatalog | utils.py:182-189 | every Bayer format in the table gets its pattern from its name, and every Mono format is shown in mono |
| PixelFormat.SimPayloadSize | utils.py:88-89 | the simulated payload is exactly `width * height` elements of storage width |
| Bytes.LeValue | convert.py:126 | a little-endian value is below `256^n` for `n` bytes |
| Bytes.ToLe | convert.py:189 | `to_bytes(count, 'little')` has `count` bytes, and their value is the input mod `256^count` |
| Bytes.ToLePrefix | convert.py:189 | the first `k` bytes of an encoding are the `k`-byte encoding |
| Bytes.ToLeOfLeValue | convert.py:189 | encoding a byte string's value at its own length gives the bytes back |
| Bytes.Decode | convert.py:112-115 | the element view has `len // bytes` elements, each below the element modulus |
| Bytes.DecodeElement | convert.py:113-115 | each element is the little-endian value of its own bytes |
| Bytes.Encode | convert.py:137-138 | `tofile` writes `bytes` bytes per element |
| Bytes.DecodeEncode | convert.py:137-138 | reading back what `tofile` wrote gives the elements back |
| Bytes.EncodeDecode | convert.py:191-193 | writing what was read gives back the whole-element part of the bytes |
| Bytes.DecodeSlice | convert.py:133 | a run of elements is the element view of the matching run of bytes |
| Bytes.Window | convert.py:133 | `d[a:a+n]` is clamped and never padded: empty when `a` is past the end, `n` long when it fits, otherwise the `|d| - a` elements that remain |
| Bytes.WindowEncode | convert.py:133-138 | encoding a full window gives back the bytes it was decoded from |
| Text.NatToString | convert.py:157 | `str(n)` is non-empty decimal digits, with a leading '0' only for 0 |
| Text.IntToString | convert.py:96 | `str(i)` starts with '-' exactly for negatives and with '0' exactly for 0 |
| Text.DigitsValueOfNatToString | convert.py:157 | the digits of `str(n)` denote `n` |
| Text.ParseInt | convert.py:253 | `int(s)` succeeds exactly on an optional sign followed by at least one digit |
| Text.ParseIntOfIntToString | convert.py:253 | `int(str(i)) == i` for every integer |
| Text.Replace | convert.py:253 | `str.replace` with a non-empty pattern keeps the length when the replacement has the pattern's length and never grows the text when it is shorter; with an empty pattern the replacement is inserted around every character |
| Text.ReplaceAbsent | convert.py:253 | replacing a pattern that does not occur changes nothing |
| Text.ReplaceAround | convert.py:96 | one occurrence of a pattern with a unique head is replaced in place, and the text on either side is replaced independently |
| Text.ReplaceTrailing | convert.py:253 | removing a suffix pattern that occurs nowhere else leaves the rest |
| Reconstruct.Scale | convert.py:140 | `arr * coef` stays below the element modulus and is exact whenever the product fits |
| Reconstruct.StillPixel | convert.py:140-143 | a still sample fits its width, and is at most 255 when it is converted to 8 bits |
| Reconstruct.GenDCStillPixel | convert.py:199-202 | a GenDC still sample fits its width, and is at most 255 after the unclipped 8-bit conversion |
| Reconstruct.ClipIsRedundant | convert.py:199-202 | the simple path's clip never changes a sample, so the GenDC path without it computes the same value |
| Reconstruct.EightBitIdentity | convert.py:140-143 | for 8-bit storage with coefficient 1 every sample is written unchanged |
| Reconstruct.TopEightBits | convert.py:140-143 | for 10-, 12- and 16-bit formats the 8-bit output keeps exactly the top 8 native bits |
| Reconstruct.PngLeftAligned | convert.py:140-142 | png keeps 16 bits: a native sample is left-aligned exactly, without wrap-around |
| Reconstruct.Reshape | convert.py:141 | `reshape((h, w))` has `h` rows, row `i` being the `i`-th run of `w` samples |
| Reconstruct.ReshapeAt | convert.py:141 | pixel `(i, j)` is flat sample `i * w + j` |
| Reconstruct.ReshapeFlatten | convert.py:141 | concatenating the rows gives the flat buffer back |
| Reconstruct.StillOutput | convert.py:136-159 | an incomplete record only warns; `raw` writes the record's samples byte for byte; otherwise an `h`-row image of the mapped samples is saved as `str(id).ext` |
| Reconstruct.FileName | convert.py:157 | `str(frame_id) + "." + extension` ends in "." plus the extension, after a run of decimal digits |
| Reconstruct.FileNameInjective | convert.py:157 | distinct frame ids never share an output file name |
| Reconstruct.StillPathsAgree | convert.py:195-217 | the GenDC still step produces the same output as the simple one |
| Reconstruct.StillIdentityForEightBit | convert.py:136-157 | a complete mono 8-bit record is saved as its own samples, reshaped |
| Reconstruct.VideoOutput | convert.py:392-399 | every record yields exactly one output: a warning carrying its frame id iff it is incomplete, otherwise an `h`-row frame of left-aligned samples, a mosaic frame iff colour and a plain frame iff mono |
| Reconstruct.GenDCVideoOutputAsWritten | convert.py:345-352 | as written, a complete mono GenDC frame yields no output |
| Reconstruct.GenDCMonoVideoDropsFrames | convert.py:345-352 | the GenDC video step drops exactly the complete mono frames; in every other case it matches the simple video step |
| SimpleScan.FileSize | convert.py:119 | the whole-element size is at most the file length and less than one element short of it |
| SimpleScan.LayoutClosedForm | convert.py:120-135 | record `k`'s id is at byte `k * (4 + payload)`, and its pixels start at element `k * (slide + w*h) + slide` |
| SimpleScan.ReadRecord | convert.py:125-134 | one iteration reads a 32-bit id and at most `w*h` samples |
| SimpleScan.ScanFrom | convert.py:122-135 | the loop from iteration `i` on reads at most `rotate_limit - i` records |
| SimpleScan.ScanFromStep | convert.py:122-135 | one loop iteration reads a record exactly when its id can be read, and reads it where the layout places it |
| SimpleScan.NextRecord | convert.py:127-135 | the loop's cursor and offset move from record `i`'s position to record `i + 1`'s |
| SimpleScan.ScanFromAt | convert.py:122-135 | the `k`-th record read from iteration `i` on is layout record `i + k`, and its id could be read |
| SimpleScan.ScanFromEnd | convert.py:122-132 | the loop stops at the first id it cannot read, unless `rotate_limit` comes first |
| SimpleScan.Scan | convert.py:109-135 | at most `rotate_limit` records; record `k` is read at its layout position; the scan stops at the first position the stop rule or the file end rejects |
| SimpleScan.RecordSamples | convert.py:133-136 | a record's samples are the decoded elements at its offset: none past the end, `w*h` when they fit, otherwise exactly the elements that remain; a short slice is never padded |
| SimpleScan.ScanUnique | convert.py:122-132 | two stop rules that accept the same records give the same scan |
| SimpleScan.StopRulesAgree | convert.py:379-380 | the image rule `cursor >= size` and the video rule `size < position` read the same records |
| SimpleScan.AlignedLayout | convert.py:119-135 | the element offset meets the byte after record `k`'s id exactly when the payload is the image size in bytes |
| SimpleScan.RawRoundTrip | convert.py:133-138 | a complete record's `raw` output is exactly the file's bytes at its pixel offset |
| SimpleScan.ImagesOf | convert.py:122-159 | a plain dump converts to one still output per record read, in file order |
| SimpleScan.VideoOf | convert.py:378-399 | a plain dump converts to one video output per record read, in file order |
| SimpleScan.SingleRecord | convert.py:109-135 | an 8-bit dump with one id and at most one payload of pixels yields exactly that record, short or not |
| SimpleScan.TwoByTwoImage | convert.py:109-157 | a 2x2 Mono8 dump with id 1 and pixels `a b c e` is saved as `1.jpg` showing `[[a, b], [c, e]]` |
| SimpleScan.IncompleteExample | convert.py:133-159 | a record with 3 of its 4 pixels only warns |
| GenDCScan.FrameId | convert.py:187-189 | the frame id is TypeSpecific3 mod 2^32; a value needing more than 8 bytes raises |
| GenDCScan.EventOf | convert.py:178-194 | an attempt is a frame exactly when the container has an intensity part with a whole number of elements and an id that fits; the frame's samples re-encode to the part's data |
| GenDCScan.CursorClosedForm | convert.py:220-221 | attempt `k` starts at byte `k * payload` |
| GenDCScan.ScanFrom | convert.py:175-221 | the loop from iteration `i` on makes at most `rotate_limit - i` attempts |
| GenDCScan.ScanFromAt | convert.py:175-221 | the `k`-th attempt from iteration `i` on parses the bytes from attempt `i + k`'s cursor |
| GenDCScan.ScanFromEnd | convert.py:175-177 | the loop ends when the cursor leaves the file, unless `rotate_limit` comes first |
| GenDCScan.Scan | convert.py:172-221 | attempt `k` parses from `k * payload`, whatever earlier attempts did; attempts continue while the cursor is in the file, up to `rotate_limit` |
| GenDCScan.AttemptCount | convert.py:175-177 | a file gets `min(limit, ceil(len / payload))` attempts; a zero payload re-parses offset 0 `limit` times |
| GenDCScan.ImagesOf | convert.py:195-217 | each frame yields one still output, and each skipped attempt yields none |
| GenDCScan.ImagesMatchSimplePath | convert.py:195-202 | a GenDC frame is converted exactly as a plain-dump record would be |
| GenDCScan.VideoOfAsWritten | convert.py:325-356 | as written, a GenDC frame yields the as-written video step's output |
| GenDCScan.VideoOf | convert.py:345-352 | with the write outside the colour branch, every GenDC frame yields one frame or one warning |
| GenDCScan.MonoVideoExample | convert.py:345-350 | a one-frame mono file yields no video frame as written, and one frame when corrected |
| Conversion.CheckExtension | convert.py:28-30 | only png, jpg, jpeg, bmp and raw pass; "bin", "mp4" and anything else are refused |
| Conversion.CatalogPrefixes | convert.py:238-240 | on catalog names, the image rule ("Bayer" prefix) and the video rule (no "Mono" prefix) agree on colour |
| Conversion.CatalogOfName | convert.py:35-37 | a known name's shift and storage depth are the catalog's |
| Conversion.ImageRender | convert.py:28-37 | the extension is checked first and the format second; the settings are the format's storage, coefficient and colour flag |
| Conversion.VideoRender | convert.py:238-243 | the video settings are the format's storage, coefficient and colour flag; an unknown format fails |
| Conversion.RendersAgree | convert.py:238-243 | image and video conversion configure every known format alike, apart from the extension |
| Conversion.BinFiles | convert.py:44 | the listing keeps each `.bin` name with its multiplicity and drops every other name |
| Conversion.SortKey | convert.py:252-253 | the key of a name that contains neither prefix nor ".bin" is `int` of the name itself |
| Conversion.InsertBy | convert.py:252-253 | inserting into a key-sorted list keeps it sorted and adds exactly the new element |
| Conversion.SortBy | convert.py:252-253 | `sort(key=...)` gives a permutation of the list in key order |
| Conversion.SortByKey | convert.py:252-253 | the file list sorted by its integer keys is a permutation in non-decreasing key order |
| Conversion.FirstKeyError | convert.py:252-253 | the reported error belongs to the first name whose key does not parse, and there is none exactly when all keys parse |
| Conversion.OrderForVideo | convert.py:248-256 | the video order is the files sorted by key, or the `ValueError` of the first unkeyable name |
| Conversion.SaverNameKey | convert.py:252-253 | a dump name `prefix + str(n) + ".bin"` with either stripped prefix has key `n` |
| Conversion.StripPrefixes | convert.py:253 | the two prefix replacements together remove exactly the leading prefix |
| Conversion.StripLeading | convert.py:253 | removing a leading pattern that does not recur leaves the rest |
| Conversion.StripBin | convert.py:253 | removing ".bin" from a stem without '.' leaves the stem |
| Conversion.ImageNameKey | convert.py:252-253 | `image0-N.bin` and `image1-N.bin` both have key `N` |
| Conversion.NumericOrder | convert.py:251-253 | dump `a < b` is read before dump `b` whatever their digit strings, so `image0-10.bin` follows `image0-2.bin` |
| Conversion.KeyedPairOrder | convert.py:252-253 | two keyed names are read smaller key first, whatever their listing order |
| Conversion.GenDCSortPrefixesAsWritten | convert.py:255-256 | the prefixes the GenDC sort strips differ from the saver's |
| Conversion.SaverGenDCPrefixes | utils.py:16-17 | the GenDC saver's prefixes each have a head that does not recur |
| Conversion.GenDCSortAsWrittenFails | convert.py:255-256 | as written, no name the GenDC saver writes for either camera (`gendc0-N.bin`, `gendc1-N.bin`) has a key |
| Conversion.SaverNameHasNoKey | convert.py:255-256 | a name with either saver prefix keeps that prefix through the as-written key, so `int` rejects it |
| Conversion.GenDCSortCorrected | convert.py:255-256 | with the saver's prefixes, `gendc0-N.bin` and `gendc1-N.bin` have key `N` |
| Conversion.GroupTarget | convert.py:90-96 | a missing sidecar or group 0 stays put; a sidecar without `group_id` raises `KeyError` |
| Conversion.GroupRename | convert.py:95-96 | a path with one "group0" moves to the same path with `group{id}` there, and so to a different path |
| Conversion.GroupRenameWithoutMarker | convert.py:311-314 | a path without "group0" is moved onto itself |
| FrameQueue.ClearQueue | camera_calibration_tool.py:18-19 | `clear_queue()` empties the queue and leaves the redirect flag alone |
| FrameQueue.PollStep | camera_calibration_tool.py:347-357 | a redirect or more than 50 queued items empties the queue; otherwise the oldest item is taken if there is one; afterwards fewer than 50 remain and the flag is clear |
| FrameQueue.Step | camera_calibration_tool.py:147-150 | a put joins the back of the queue and shows nothing; a redirect only raises the flag; a turn is a poll; no event invents an item |
| FrameQueue.Run | camera_calibration_tool.py:347-357 | over any run, the items taken plus the items still queued never exceed what was queued plus what was put |
| FrameQueue.StepInOrder | camera_calibration_tool.py:347-357 | each put, redirect or poll keeps the FIFO order invariant |
| FrameQueue.RunKeepsOrder | camera_calibration_tool.py:347-357 | over any run, the queue is the newest part of the input, and the items taken are the older part with some dropped and none reordered or repeated |
| FrameQueue.StepLossless | camera_calibration_tool.py:351-357 | a step with no redirect that meets no backlog above 50 loses nothing |
| FrameQueue.LosslessRun | camera_calibration_tool.py:347-357 | in a calm run, the items taken followed by the items queued are exactly the input |
| FrameQueue.WatermarkFlush | camera_calibration_tool.py:351-352 | 51 queued items are all dropped and nothing is displayed |
| FrameQueue.WatermarkKeep | camera_calibration_tool.py:351-355 | exactly 50 queued items are kept, and the oldest is displayed |
| FrameQueue.ClearedPollTakesNothing | camera_calibration_tool.py:18-19 | after `clear_queue()` the display's next turn takes nothing |
| FrameQueue.NoStaleFrames | camera_calibration_tool.py:18-19 | after `clear_queue()` the display takes only queue entries put later, in order, and the queue holds only the newest of them |
| Acquisition.Iterate | camera_calibration_tool.py:143-276 | one iteration queues exactly one buffer set, tagged GenDC iff saving in GenDC mode; it rebuilds only on an edge of the save flag; afterwards `is_display == !start_save` |
| Acquisition.Loop | camera_calibration_tool.py:141-281 | the loop makes one put per completed iteration and records one rebuild entry per iteration |
| Acquisition.GenDCModeAloneNeverRebuilds | camera_calibration_tool.py:152-250 | flipping `gendc_mode` alone never changes whether an iteration rebuilds |
| Acquisition.LoopFollowsEdges | camera_calibration_tool.py:141-253 | over any run, iteration `k` queues its own tag and rebuilds exactly on an edge of the save flag |
| Acquisition.Capture | camera_calibration_tool.py:282-285 | however `run` ends, the display's next turn finds no frame; `is_display` mirrors the last save flag and each iteration put its own tag |
| Acquisition.CaptureLeavesNoStaleFrame | camera_calibration_tool.py:282-285 | after `run`, the display takes only queue entries put later, in order; no entry queued before the clear is taken |
| Acquisition.SteadySave | camera_calibration_tool.py:146-153 | holding the save flag from a live start, only the first iteration builds the saver |
| LiveView.DescriptorSize | camera_calibration_tool.py:343-345 | the descriptor size is the payload minus the image bytes |
| LiveView.PySuffix | camera_calibration_tool.py:361 | `bs[start:]` is the last part of the buffer, of the length Python's clamping gives |
| LiveView.LivePixel | camera_calibration_tool.py:363-367 | a preview sample always fits in 8 bits |
| LiveView.LivePixelIsStillPixel | camera_calibration_tool.py:363-367 | the preview shows the same 8-bit value the offline jpg converter writes |
| LiveView.LiveSamples | camera_calibration_tool.py:363-367 | every sample is mapped independently |
| LiveView.GenDCFrame | camera_calibration_tool.py:358-367 | a GenDC buffer displays exactly when the bytes after the descriptor are the image's size, and then shows those samples mapped |
| LiveView.ImageFrame | camera_calibration_tool.py:368-375 | a plain buffer shows its samples mapped, in `h` rows |
| LiveView.PayloadSizedBuffer | camera_calibration_tool.py:358-367 | a payload-sized buffer displays its last `w*h` elements when it holds the image, and fails otherwise |
| LiveView.SimulatedPayloadHasNoDescriptor | utils.py:88-89 | in simulation the descriptor size is 0 |
| LiveView.LiveMatchesOffline | camera_calibration_tool.py:358-367 | a descriptor-then-image buffer is previewed exactly as the offline jpg converter maps the image |

## Left out

- gui.py is not part of this model: Tk widgets, button states, slider rounding, saving JSON settings, and thread joining.
- The pipeline engine (the ionpy builder, its nodes, ports and `builder.run()`) is not modelled. A rebuild is an event naming the pipeline built, and `Iteration.runs` counts the runs.
- Threads and the unlocked shared flags are not modelled. The queue and the capture loop are sequential step functions over explicit events and per-iteration flag snapshots.
- GenDC container parsing belongs to a foreign library. It is the `parse` oracle of `GenDCScan`, which may report a parse failure, no intensity component, or a part with its TypeSpecific3 word and data.
- Colour reconstruction is not modelled: the hard-coded BayerBG demosaic, `cv2.normalize`, the float gains and the clip to [0, 1]. A colour frame is emitted as the mosaic handed to the demosaic (`MosaicImage`, `MosaicVideoFrame`), and `_display_3d` is covered only by its shared poll step and descriptor slice.
- `normalize_to_uint8` and `resize` are float arithmetic, so they are not modelled.
- File and OS effects are not modelled: `open`, `fromfile`/`tofile` as I/O, PIL and VideoWriter output, `os.listdir`, `del_bin`, `shutil.move`, and the timed retry of `read_config`. A dump is a byte sequence, a listing is a sequence of names, and a sidecar is a `Sidecar` value.
- Aravis device queries, argparse, JSON loading and `log_write` are not modelled. Only the pure derivations inside `get_device_info` are extracted (payload size, colour pattern, block name).
- convert.py imports `PREFIX_NAME0`/`PREFIX_NAME1`, which utils.py does not define (it has only `DEFAULT_PREFIX_NAME0`/`1`). The sort-key prefixes are therefore parameters of `Conversion.SortKey`.
- Conversion.SortBy: proves a permutation in key order, but not the stability of Python's `list.sort`.
- Text.ParseInt: accepts exactly a sign and ASCII digits. Python's `int` also allows surrounding whitespace, underscores and non-ASCII digits, which no dump name contains.
- The "unsupported depth" branches (convert.py:116-118, 372-374) are unreachable. Every catalog format stores 8 or 16 bits (`PixelFormat.RequiredBitDepthValues`), so `Width` has just those two cases.
- Conversion.GroupTarget: `group_id` is modelled as an integer. A non-integer JSON value is not modelled.
- SimpleScan.RawRoundTrip: requires `width * height > 0`. With an empty image, every slice is trivially complete.
- Queue entries are values in the model. In the program every `q.put` enqueues the same two lists of arrays (camera_calibration_tool.py:123, 133, 147, 150), and the next `builder.run()` (camera_calibration_tool.py:144) overwrites them in place. The display therefore shows whatever the buffers hold when it polls. `FrameQueue` and `Acquisition` state facts about which entries are taken, not about pixel contents at put time.
- Elements of 16 and 32 bits are decoded little-endian (`Bytes.Decode`, `Bytes.DecodeElement`). numpy's `uint16`/`uint32` use the host's byte order, so the model assumes a little-endian host.
- Multi-device loops (`for i in range(num_device)`) apply the same per-device function to each device. The model states that function once.

## Findings

| source | as written | input that shows it | evidently intended | confidence | as-written member | corrected member |
|---|---|---|---|---|---|---|
| convert.py:348-350 | `video_writer.write(img_arr)` is indented inside `if is_color:`, so the GenDC video path never writes a mono frame | a Mono8 GenDC dump with one complete 2x2 frame: the video gets no frame | write every complete frame, as the plain-dump video path does at convert.py:395-397 | high; not executed | GenDCScan.VideoOfAsWritten | GenDCScan.VideoOf |
| convert.py:255-256 | the GenDC sort strips "gendc_0-" and "gendc_1-", but the saver writes with "gendc0-" and "gendc1-" (utils.py:16-17) | `gendc0-5.bin` (or `gendc1-5.bin`) is stripped to `gendc0-5`, so `int` raises and the whole directory is abandoned | strip the saver's own prefixes | high; not executed | Conversion.GenDCSortAsWrittenFails | Conversion.GenDCSortCorrected |

=== FILE: acquisition.dfy ===
/** The capture loop of camera_calibration_tool.py (`FrameCapture.run`) as
    a sequential state machine. Each iteration runs the current pipeline,
    queues exactly one tagged buffer set for the display, and switches the
    pipeline on an edge of the save flag. The pipeline itself is an
    external engine: a rebuild is an event naming the pipeline built. */
module Acquisition {
  import opened Wrappers
  import opened FrameQueue

  /** The `is_GenDC` tag of a queued buffer set. */
  datatype Tag = ImageBuffers | GenDCBuffers

  /** The pipeline the builder runs: the live preview, or the saver for
      plain images or for GenDC containers. */
  datatype Graph = LiveGraph | ImageSaveGraph | GenDCSaveGraph

  /** The loop's state: the local `is_display`, the `exclude` flag the GUI
      reads, the current pipeline, and the tags of the buffer sets it has
      put on the shared queue so far, in order. */
  datatype Producer = Producer(isDisplay: bool, exclude: bool, graph: Graph, puts: seq<Tag>)

  /** The GUI flags as one iteration reads them. */
  datatype Controls = Controls(startSave: bool, gendcMode: bool)

  /** One iteration: the state after it, the pipeline it built (if any)
      and how many times it ran a pipeline. */
  datatype Iteration = Iteration(next: Producer, rebuilt: Option<Graph>, runs: nat)

  /** The state on entering the loop: live preview, nothing queued. */
  function Initial(exclude: bool): Producer
  {
    Producer(true, exclude, LiveGraph, [])
  }

  /** The tag is read from the flags before the iteration's mode switch. */
  function TagOf(ctl: Controls): Tag
  {
    if ctl.startSave && ctl.gendcMode then GenDCBuffers else ImageBuffers
  }

  function SaveGraph(gendcMode: bool): Graph
  {
    if gendcMode then GenDCSaveGraph else ImageSaveGraph
  }

  /** One pass of `while not self.stop`. */
  function Iterate(p: Producer, ctl: Controls): (it: Iteration)
    ensures it.next.puts == p.puts + [TagOf(ctl)]
    ensures it.next.isDisplay == !ctl.startSave
    ensures it.rebuilt.Some? <==> ctl.startSave == p.isDisplay
    ensures ctl.startSave && p.isDisplay ==>
      it.rebuilt == Some(SaveGraph(ctl.gendcMode)) && it.next.graph == SaveGraph(ctl.gendcMode) &&
      it.next.exclude && it.runs == 2
    ensures !ctl.startSave && !p.isDisplay ==>
      it.rebuilt == Some(LiveGraph) && it.next.graph == LiveGraph && it.next.exclude == p.exclude && it.runs == 1
    ensures it.rebuilt.None? ==> it.next.graph == p.graph && it.next.exclude == p.exclude && it.runs == 1
  {
    var queued := p.puts + [TagOf(ctl)];
    if ctl.startSave && p.isDisplay then
      var g := SaveGraph(ctl.gendcMode);
      Iteration(Producer(false, true, g, queued), Some(g), 2)
    else if !ctl.startSave && !p.isDisplay then
      Iteration(Producer(true, p.exclude, LiveGraph, queued), Some(LiveGraph), 1)
    else
      Iteration(p.(puts := queued), None, 1)
  }

  /** Toggling `gendc_mode` alone never rebuilds: whether an iteration
      rebuilds depends on the save flag and `is_display` only. */
  lemma GenDCModeAloneNeverRebuilds(p: Producer, ctl: Controls)
    ensures Iterate(p, ctl).rebuilt.Some? == Iterate(p, ctl.(gendcMode := !ctl.gendcMode)).rebuilt.Some?
    ensures Iterate(p, ctl).next.isDisplay == Iterate(p, ctl.(gendcMode := !ctl.gendcMode)).next.isDisplay
  {
  }

  /** The loop over the flags each iteration saw: the final state and the
      rebuilds, one entry per iteration. */
  function Loop(p: Producer, ctls: seq<Controls>): (r: (Producer, seq<Option<Graph>>))
    ensures |r.1| == |ctls|
    ensures |r.0.puts| == |p.puts| + |ctls|
    decreases |ctls|
  {
    if |ctls| == 0 then (p, [])
    else
      var (mid, rebuilds) := Loop(p, ctls[..|ctls| - 1]);
      var it := Iterate(mid, ctls[|ctls| - 1]);
      (it.next, rebuilds + [it.rebuilt])
  }

  /** The save flag seen before iteration `k`; the flag is clear when the
      loop starts (`run` resets it). */
  function PreviousSave(ctls: seq<Controls>, k: nat): bool
    requires k <= |ctls|
  {
    k > 0 && ctls[k - 1].startSave
  }

  /** An independent reading of the mode switch: a rising edge of the save
      flag builds the saver chosen by that iteration's GenDC flag, a falling
      edge builds the preview, and no edge builds nothing. */
  function Edge(previous: bool, ctl: Controls): Option<Graph>
  {
    if ctl.startSave && !previous then Some(SaveGraph(ctl.gendcMode))
    else if !ctl.startSave && previous then Some(LiveGraph)
    else None
  }

  /** Over any run from the initial state, iteration `k` queues the tag of
      its own flags, and it rebuilds exactly on an edge of the save flag;
      `is_display` always mirrors the last save flag seen. */
  lemma {:induction false} LoopFollowsEdges(exclude: bool, ctls: seq<Controls>)
    ensures var (f, rebuilds) := Loop(Initial(exclude), ctls);
      f.isDisplay == !PreviousSave(ctls, |ctls|) &&
      (forall k :: 0 <= k < |ctls| ==> f.puts[k] == TagOf(ctls[k])) &&
      (forall k :: 0 <= k < |ctls| ==> rebuilds[k] == Edge(PreviousSave(ctls, k), ctls[k]))
    decreases |ctls|
  {
    if |ctls| > 0 {
      var init := ctls[..|ctls| - 1];
      LoopFollowsEdges(exclude, init);
      var (mid, rebuilds) := Loop(Initial(exclude), init);
      var last := ctls[|ctls| - 1];
      var it := Iterate(mid, last);
      assert Loop(Initial(exclude), ctls) == (it.next, rebuilds + [it.rebuilt]);
      forall k | 0 <= k < |ctls|
        ensures it.next.puts[k] == TagOf(ctls[k])
        ensures (rebuilds + [it.rebuilt])[k] == Edge(PreviousSave(ctls, k), ctls[k])
      {
        if k < |init| {
          assert ctls[k] == init[k];
          assert PreviousSave(ctls, k) == PreviousSave(init, k);
        }
      }
    }
  }

  /** `run` as a whole: whether it ends by the stop flag or by an exception,
      the `finally` clause calls `clear_queue()`. A failing iteration may
      already have put its buffer set; the clear drops it, and `puts`
      records completed iterations only. `ctls` are the flags of the
      iterations that completed and `q` is the shared queue as it stood when
      the loop ended; the result is the producer's final state and the queue
      the display is left with, on which its next turn finds no frame. */
  function Capture(exclude: bool, ctls: seq<Controls>, q: Consumer<Tag>): (r: (Producer, Consumer<Tag>))
    ensures PollStep(r.1).item == None
    ensures r.0.isDisplay == !PreviousSave(ctls, |ctls|)
    ensures |r.0.puts| == |ctls| && forall k :: 0 <= k < |ctls| ==> r.0.puts[k] == TagOf(ctls[k])
  {
    LoopFollowsEdges(exclude, ctls);
    (Loop(Initial(exclude), ctls).0, ClearQueue(q))
  }

  /** After `run` the display takes only queue entries put by a later run,
      in order: no entry queued before the clear is ever taken. */
  lemma CaptureLeavesNoStaleFrame(exclude: bool, ctls: seq<Controls>, q: Consumer<Tag>, later: seq<Event<Tag>>)
    ensures IsSubseq(Run(Capture(exclude, ctls, q).1, later).1, Puts(later))
  {
    NoStaleFrames(q, later);
  }

  /** Saving with one flag setting from a live start: the first iteration
      builds the saver and queues the preview buffers under the save tag,
      later iterations neither rebuild nor change the tag. */
  lemma SteadySave(exclude: bool, ctl: Controls, n: nat)
    requires ctl.startSave && n > 0
    ensures var ctls := seq(n, _ => ctl);
      var (f, rebuilds) := Loop(Initial(exclude), ctls);
      rebuilds[0] == Some(SaveGraph(ctl.gendcMode)) &&
      (forall k :: 1 <= k < n ==> rebuilds[k].None?) &&
      (forall k :: 0 <= k < n ==> f.puts[k] == TagOf(ctl))
  {
    var ctls := seq(n, _ => ctl);
    LoopFollowsEdges(exclude, ctls);
    forall k | 1 <= k < n
      ensures PreviousSave(ctls, k)
    {
      assert ctls[k - 1] == ctl;
    }
  }
}

=== FILE: bytes.dfy ===
/** Byte strings, little-endian integers and the element view numpy gives a
    byte buffer (`np.fromfile` / `np.frombuffer` with `uint8` or `uint16`). */
module Bytes {

  type Byte = b: int | 0 <= b < 256

  /** The two element widths the project ever reads a dump with. */
  datatype Width = U8 | U16 {

    function Bits(): nat
    {
      match this
      case U8 => 8
      case U16 => 16
    }

    function Bytes(): nat
    {
      match this
      case U8 => 1
      case U16 => 2
    }

    /** Every unsigned arithmetic result of this width is taken modulo this. */
    function Modulus(): nat
    {
      match this
      case U8 => 256
      case U16 => 65536
    }
  }

  function Pow256(n: nat): (p: nat)
    ensures p >= 1
  {
    if n == 0 then 1 else 256 * Pow256(n - 1)
  }

  lemma Pow256Four()
    ensures Pow256(4) == 0x1_0000_0000
  {
  }

  lemma WidthModulus(w: Width)
    ensures w.Modulus() == Pow256(w.Bytes())
    ensures w.Bits() == 8 * w.Bytes()
  {
  }

  /** The unsigned little-endian value of a byte string. */
  function LeValue(bs: seq<Byte>): (v: nat)
    ensures v < Pow256(|bs|)
  {
    if |bs| == 0 then 0 else bs[0] + 256 * LeValue(bs[1..])
  }

  /** `v % (a * b) == v % a + a * ((v / a) % b)` */
  lemma ModOfProduct(v: nat, a: nat, b: nat)
    requires a > 0 && b > 0
    ensures v % (a * b) == v % a + a * ((v / a) % b)
  {
    var q := v / a;
    var r := v % a;
    var s := q % b;
    var t := q / b;
    assert q == b * t + s;
    assert v == a * q + r;
    assert v == (a * b) * t + (a * s + r) by {
      calc {
        v;
        a * (b * t + s) + r;
        { assert a * (b * t + s) == a * b * t + a * s; }
        (a * b) * t + (a * s + r);
      }
    }
    assert a * s <= a * (b - 1) by {
      assert s <= b - 1;
    }
    assert 0 <= a * s + r < a * b;
    DivModUnique(v, a * b, t, a * s + r);
  }

  lemma DivModUnique(v: int, m: int, k: int, s: int)
    requires m > 0 && 0 <= s < m && v == m * k + s
    ensures v % m == s && v / m == k
  {
    var q := v / m;
    var r := v % m;
    assert m * (q - k) == s - r;
    if q - k >= 1 {
      MulAtLeast(m, q - k);
    } else if k - q >= 1 {
      MulAtLeast(m, k - q);
    }
  }

  lemma MulAtLeast(m: int, x: int)
    requires m > 0 && x >= 1
    ensures m * x >= m
  {
  }

  /** `count` little-endian bytes of `v`, as Python's `v.to_bytes(count, 'little')`
      for a `v` that fits; the caller checks the fit. */
  function ToLe(v: nat, count: nat): (bs: seq<Byte>)
    ensures |bs| == count
    ensures LeValue(bs) == v % Pow256(count)
  {
    if count == 0 then []
    else
      var rest := ToLe(v / 256, count - 1);
      ModOfProduct(v, 256, Pow256(count - 1));
      [v % 256] + rest
  }

  /** The first `k` bytes of an encoding are the `k`-byte encoding. */
  lemma {:induction false} ToLePrefix(v: nat, count: nat, k: nat)
    requires k <= count
    ensures ToLe(v, count)[..k] == ToLe(v, k)
  {
    if k > 0 {
      ToLePrefix(v / 256, count - 1, k - 1);
      assert ToLe(v, count)[..k] == [v % 256] + ToLe(v / 256, count - 1)[..k - 1];
    }
  }

  /** Encoding a byte string's value with its own length gives it back. */
  lemma {:induction false} ToLeOfLeValue(bs: seq<Byte>)
    ensures ToLe(LeValue(bs), |bs|) == bs
  {
    if |bs| > 0 {
      var v := LeValue(bs);
      assert v % 256 == bs[0] && v / 256 == LeValue(bs[1..]) by {
        DivModUnique(v, 256, LeValue(bs[1..]), bs[0]);
      }
      ToLeOfLeValue(bs[1..]);
      assert bs == [bs[0]] + bs[1..];
    }
  }

  /** The element view of a byte buffer: `np.frombuffer(bs, dtype)` with the
      trailing partial element dropped, as `np.fromfile` does; elements are
      little-endian. */
  function Decode(bs: seq<Byte>, w: Width): (d: seq<nat>)
    ensures |d| == |bs| / w.Bytes()
    ensures forall i :: 0 <= i < |d| ==> d[i] < w.Modulus()
  {
    match w
    case U8 => seq(|bs|, i requires 0 <= i < |bs| => bs[i] as nat)
    case U16 => seq(|bs| / 2, i requires 0 <= i < |bs| / 2 => (bs[2 * i] as nat) + 256 * (bs[2 * i + 1] as nat))
  }

  /** Each element is the little-endian value of its own bytes. */
  lemma DecodeElement(bs: seq<Byte>, w: Width, i: nat)
    requires i < |bs| / w.Bytes()
    ensures i * w.Bytes() + w.Bytes() <= |bs|
    ensures Decode(bs, w)[i] == LeValue(bs[i * w.Bytes() .. i * w.Bytes() + w.Bytes()])
  {
    match w
    case U8 =>
      assert bs[i .. i + 1] == [bs[i]];
    case U16 =>
      var two := bs[2 * i .. 2 * i + 2];
      assert two[1..] == [bs[2 * i + 1]];
  }

  ghost predicate Fits(d: seq<nat>, w: Width)
  {
    forall i :: 0 <= i < |d| ==> d[i] < w.Modulus()
  }

  /** The bytes numpy's `tofile` writes for an element array (whose elements
      always fit the dtype). */
  function Encode(d: seq<nat>, w: Width): (bs: seq<Byte>)
    requires Fits(d, w)
    ensures |bs| == |d| * w.Bytes()
  {
    match w
    case U8 => seq(|d|, i requires 0 <= i < |d| => d[i] as Byte)
    case U16 =>
      seq(2 * |d|, j requires 0 <= j < 2 * |d| =>
        if j % 2 == 0 then (d[j / 2] % 256) as Byte else (d[j / 2] / 256) as Byte)
  }

  /** Reading back what was written gives the elements back. */
  lemma DecodeEncode(d: seq<nat>, w: Width)
    requires Fits(d, w)
    ensures Decode(Encode(d, w), w) == d
  {
    var r := Decode(Encode(d, w), w);
    assert |r| == |d|;
    forall i | 0 <= i < |d|
      ensures r[i] == d[i]
    {
    }
  }

  /** Writing what was read gives back the whole-element part of the bytes. */
  lemma EncodeDecode(bs: seq<Byte>, w: Width)
    ensures Encode(Decode(bs, w), w) == bs[..|bs| / w.Bytes() * w.Bytes()]
  {
    var r := Encode(Decode(bs, w), w);
    var whole := bs[..|bs| / w.Bytes() * w.Bytes()];
    assert |r| == |whole|;
    forall j | 0 <= j < |r|
      ensures r[j] == whole[j]
    {
    }
  }

  /** A run of elements is the element view of the matching run of bytes. */
  lemma DecodeSlice(bs: seq<Byte>, w: Width, a: nat, b: nat)
    requires a <= b <= |bs| / w.Bytes()
    ensures b * w.Bytes() <= |bs|
    ensures Decode(bs, w)[a..b] == Decode(bs[a * w.Bytes() .. b * w.Bytes()], w)
  {
    var k := w.Bytes();
    var d := Decode(bs, w);
    var part := bs[a * k .. b * k];
    var e := Decode(part, w);
    assert |e| == b - a;
    forall i | 0 <= i < b - a
      ensures e[i] == d[a + i]
    {
    }
  }

  /** numpy's `d[a:a+n]` for non-negative `a` and `n`: clamped, never padded. */
  function Window<T>(d: seq<T>, a: nat, n: nat): (r: seq<T>)
    ensures |r| <= n
    ensures |r| == n <==> n == 0 || a + n <= |d|
    ensures |r| == if a >= |d| then 0 else if a + n <= |d| then n else |d| - a
    ensures forall i :: 0 <= i < |r| ==> a + i < |d| && r[i] == d[a + i]
  {
    if a >= |d| then [] else if a + n <= |d| then d[a .. a + n] else d[a..]
  }

  /** Encoding a window of whole elements gives back the bytes it was
      decoded from. */
  lemma WindowEncode(bs: seq<Byte>, w: Width, a: nat, n: nat)
    requires a + n <= |Decode(bs, w)|
    ensures a * w.Bytes() + n * w.Bytes() <= |bs|
    ensures Encode(Window(Decode(bs, w), a, n), w) == bs[a * w.Bytes() .. a * w.Bytes() + n * w.Bytes()]
  {
    var k := w.Bytes();
    var d := Decode(bs, w);
    assert Window(d, a, n) == d[a .. a + n];
    DecodeSlice(bs, w, a, a + n);
    assert (a + n) * k == a * k + n * k;
    var part := bs[a * k .. a * k + n * k];
    EncodeDecode(part, w);
    assert |part| == n * k;
    assert |part| / k * k == |part| by {
      match w
      case U8 =>
      case U16 =>
    }
  }
}

=== FILE: conversion.dfy ===
/** The per-directory decisions of convert.py's `convert_to_img` and
    `convert_to_video`: which extensions are accepted, how the frame
    settings follow from the pixel format, which files are read and in what
    order, and where a directory is moved after conversion. */
module Conversion {
  import opened Wrappers
  import opened Text
  import opened Bytes
  import opened PixelFormat
  import opened Reconstruct

  datatype ConvertError =
    | UnsupportedExtension(ext: string)
    | UnknownFormat(name: string)
    | MissingGroupId

  /** The still-image targets the converter writes. */
  predicate SupportedExtension(ext: string)
  {
    ext == "png" || ext == "jpg" || ext == "jpeg" || ext == "bmp" || ext == "raw"
  }

  /** The extension gate: `bin` is refused explicitly, anything outside the
      accepted list (`mp4` included) is refused as well. */
  function CheckExtension(ext: string): (r: Result<string, ConvertError>)
    ensures r.Ok? <==> SupportedExtension(ext)
    ensures r.Ok? ==> r.value == ext
    ensures r.Err? ==> r.error == UnsupportedExtension(ext)
  {
    if ext == "bin" || ext !in ["bin", "png", "jpg", "jpeg", "png", "bmp", "raw"] then
      Err(UnsupportedExtension(ext))
    else Ok(ext)
  }

  /** On catalog names the image converter's colour rule (a "Bayer" prefix)
      and the video converter's (no "Mono" prefix) agree: both say Bayer. */
  lemma CatalogPrefixes(f: Format)
    ensures StartsWith(Name(f), "Bayer") <==> IsBayer(f)
    ensures StartsWith(Name(f), "Mono") <==> !IsBayer(f)
  {
    DisplayModeOfCatalog(f);
    var n := Name(f);
    if IsBayer(f) {
      assert n[0] == 'B';
      assert n[..4] != "Mono";
    } else {
      assert n[..4] == "Mono";
    }
  }

  /** The catalog values a known name resolves to. */
  lemma CatalogOfName(name: string)
    requires Lookup(name).Some?
    ensures var f := Lookup(name).value;
      NumBitShift(name) == Ok(Shift(f)) && RequiredBitDepth(name) == Ok(Required(f))
  {
  }

  /** The settings `convert_to_img` derives before reading any file. The
      extension is checked first; an unknown format then fails the shift
      lookup. */
  function ImageRender(width: nat, height: nat, name: string, ext: string): (r: Result<Render, ConvertError>)
    ensures r.Ok? <==> SupportedExtension(ext) && Lookup(name).Some?
    ensures !SupportedExtension(ext) ==> r == Err(UnsupportedExtension(ext))
    ensures SupportedExtension(ext) && Lookup(name).None? ==> r == Err(UnknownFormat(name))
    ensures r.Ok? ==> var f := Lookup(name).value;
      r.value == Render(width, height, Storage(f), Coef(f), IsBayer(f), ext)
  {
    match CheckExtension(ext)
    case Err(e) => Err(e)
    case Ok(_) =>
      var isColor := StartsWith(name, "Bayer");
      match NumBitShift(name)
      case Err(_) => Err(UnknownFormat(name))
      case Ok(shift) =>
        CatalogOfName(name);
        CatalogPrefixes(Lookup(name).value);
        var req := RequiredBitDepth(name).value;
        Ok(Render(width, height, if req == 8 then U8 else U16, Pow2(shift), isColor, ext))
  }

  /** The settings `convert_to_video` derives: no extension check, colour
      unless the name starts with "Mono". */
  function VideoRender(width: nat, height: nat, name: string): (r: Result<Render, ConvertError>)
    ensures r.Ok? <==> Lookup(name).Some?
    ensures r.Err? ==> r.error == UnknownFormat(name)
    ensures r.Ok? ==> var f := Lookup(name).value;
      r.value == Render(width, height, Storage(f), Coef(f), IsBayer(f), "mp4")
  {
    var isColor := !StartsWith(name, "Mono");
    match NumBitShift(name)
    case Err(_) => Err(UnknownFormat(name))
    case Ok(shift) =>
      CatalogOfName(name);
      CatalogPrefixes(Lookup(name).value);
      var req := RequiredBitDepth(name).value;
      Ok(Render(width, height, if req == 8 then U8 else U16, Pow2(shift), isColor, "mp4"))
  }

  /** The two converters configure every known format alike, apart from
      the target extension. */
  lemma RendersAgree(width: nat, height: nat, name: string, ext: string)
    requires SupportedExtension(ext) && Lookup(name).Some?
    ensures ImageRender(width, height, name, ext).Ok? && VideoRender(width, height, name).Ok?
    ensures ImageRender(width, height, name, ext).value ==
      VideoRender(width, height, name).value.(ext := ext)
  {
  }

  /** The directory listing filtered to the dump files: each `.bin` name
      keeps its multiplicity, every other name (the sidecar json) is gone. */
  function BinFiles(names: seq<string>): (r: seq<string>)
    ensures forall x :: multiset(r)[x] == if EndsWith(x, ".bin") then multiset(names)[x] else 0
  {
    if |names| == 0 then []
    else
      var rest := BinFiles(names[1..]);
      assert names == [names[0]] + names[1..];
      if EndsWith(names[0], ".bin") then [names[0]] + rest else rest
  }

  /** The video sort key: the file name with both prefixes and ".bin"
      removed, read as an integer. */
  function SortKey(f: string, p0: string, p1: string): (r: Result<int, ParseError>)
    ensures |p0| > 0 && |p1| > 0 && NoOccurrence(f, p0) && NoOccurrence(f, p1) && NoOccurrence(f, ".bin") ==>
      r == ParseInt(f)
  {
    var stripped := Replace(Replace(Replace(f, p0, ""), p1, ""), ".bin", "");
    assert |p0| > 0 && |p1| > 0 && NoOccurrence(f, p0) && NoOccurrence(f, p1) && NoOccurrence(f, ".bin") ==>
      stripped == f by {
      if |p0| > 0 && |p1| > 0 && NoOccurrence(f, p0) && NoOccurrence(f, p1) && NoOccurrence(f, ".bin") {
        ReplaceAbsent(f, p0, "");
        ReplaceAbsent(f, p1, "");
        ReplaceAbsent(f, ".bin", "");
      }
    }
    ParseInt(stripped)
  }

  /** The key of a name whose key parses; only fully keyed lists are
      sorted, so the fallback is never compared. */
  function Key(f: string, p0: string, p1: string): int
  {
    match SortKey(f, p0, p1)
    case Ok(v) => v
    case Err(_) => 0
  }

  predicate AllKeyed(files: seq<string>, p0: string, p1: string)
  {
    forall f :: f in files ==> SortKey(f, p0, p1).Ok?
  }

  /** `s` is in non-decreasing order of `key`. */
  predicate SortedBy<T>(s: seq<T>, key: T -> int)
  {
    forall i, j :: 0 <= i < j < |s| ==> key(s[i]) <= key(s[j])
  }

  predicate SortedByKey(files: seq<string>, p0: string, p1: string)
  {
    forall i, j :: 0 <= i < j < |files| ==> Key(files[i], p0, p1) <= Key(files[j], p0, p1)
  }

  /** Places `x` before the first element whose key is at least its own. */
  function InsertBy<T>(x: T, s: seq<T>, key: T -> int): (r: seq<T>)
    requires SortedBy(s, key)
    ensures multiset(r) == multiset(s) + multiset{x}
    ensures SortedBy(r, key)
  {
    if |s| == 0 then [x]
    else if key(x) <= key(s[0]) then [x] + s
    else
      assert s == [s[0]] + s[1..];
      var rest := InsertBy(x, s[1..], key);
      MembersOfInsert(rest, s[1..], x);
      PrependSorted(s[0], s[1..], x, rest, key);
      [s[0]] + rest
  }

  /** A head that is ordered before every element of a sorted list and
      before `x` stays ordered before any sorted arrangement of them. */
  lemma PrependSorted<T>(h: T, s: seq<T>, x: T, rest: seq<T>, key: T -> int)
    requires SortedBy([h] + s, key) && key(h) <= key(x) && SortedBy(rest, key)
    requires forall y :: y in rest ==> y == x || y in s
    ensures SortedBy([h] + rest, key)
  {
    var r := [h] + rest;
    forall i, j | 0 <= i < j < |r|
      ensures key(r[i]) <= key(r[j])
    {
      assert r[j] == rest[j - 1];
      if i == 0 {
        var y := rest[j - 1];
        assert y in rest;
        assert r[0] == h;
        if y != x {
          var k :| 0 <= k < |s| && s[k] == y;
          assert ([h] + s)[0] == h && ([h] + s)[k + 1] == y;
        }
      } else {
        assert r[i] == rest[i - 1];
      }
    }
  }

  /** Every element of `r` is `x` or an element of `s` when `r` holds
      exactly the elements of `s` and `x`. */
  lemma MembersOfInsert<T>(r: seq<T>, s: seq<T>, x: T)
    requires multiset(r) == multiset(s) + multiset{x}
    ensures forall y :: y in r ==> y == x || y in s
  {
    forall y | y in r
      ensures y == x || y in s
    {
      assert y in multiset(r);
    }
  }

  /** `list.sort(key=key)`: a permutation of `s` in key order. */
  function SortBy<T>(s: seq<T>, key: T -> int): (r: seq<T>)
    ensures multiset(r) == multiset(s)
    ensures SortedBy(r, key)
  {
    if |s| == 0 then []
    else
      assert s == [s[0]] + s[1..];
      InsertBy(s[0], SortBy(s[1..], key), key)
  }

  /** Two sequences with the same multiset have the same elements. */
  lemma SameElements<T>(r: seq<T>, s: seq<T>)
    requires multiset(r) == multiset(s)
    ensures forall y :: y in r <==> y in s
  {
    forall y
      ensures y in r <==> y in s
    {
      assert y in r <==> y in multiset(r);
      assert y in s <==> y in multiset(s);
    }
  }

  /** `file_list.sort(key=...)` once every key has been computed. */
  function SortByKey(files: seq<string>, p0: string, p1: string): (r: seq<string>)
    requires AllKeyed(files, p0, p1)
    ensures multiset(r) == multiset(files)
    ensures AllKeyed(r, p0, p1) && SortedByKey(r, p0, p1)
  {
    var r := SortBy(files, f => Key(f, p0, p1));
    SameElements(r, files);
    r
  }

  /** The first key that fails to parse, in list order. */
  function FirstKeyError(files: seq<string>, p0: string, p1: string): (e: Option<ParseError>)
    ensures e.None? <==> AllKeyed(files, p0, p1)
    ensures e.Some? ==> exists i :: (0 <= i < |files| && SortKey(files[i], p0, p1) == Err(e.value) &&
      forall j :: 0 <= j < i ==> SortKey(files[j], p0, p1).Ok?)
  {
    if |files| == 0 then None
    else
      assert files == [files[0]] + files[1..];
      match SortKey(files[0], p0, p1)
      case Err(err) => Some(err)
      case Ok(_) =>
        var e := FirstKeyError(files[1..], p0, p1);
        if e.Some? then
          FirstErrorShifted(files, p0, p1, e.value);
          e
        else e
  }

  /** A first failing key in the tail is the first failing key of the list
      when the head's key parses. */
  lemma FirstErrorShifted(files: seq<string>, p0: string, p1: string, e: ParseError)
    requires |files| > 0 && SortKey(files[0], p0, p1).Ok?
    requires exists i :: (0 <= i < |files[1..]| && SortKey(files[1..][i], p0, p1) == Err(e) &&
      forall j :: 0 <= j < i ==> SortKey(files[1..][j], p0, p1).Ok?)
    ensures exists i :: (0 <= i < |files| && SortKey(files[i], p0, p1) == Err(e) &&
      forall j :: 0 <= j < i ==> SortKey(files[j], p0, p1).Ok?)
  {
    var i :| 0 <= i < |files[1..]| && SortKey(files[1..][i], p0, p1) == Err(e) &&
      forall j :: 0 <= j < i ==> SortKey(files[1..][j], p0, p1).Ok?;
    assert SortKey(files[i + 1], p0, p1) == Err(e);
    forall j | 0 <= j < i + 1
      ensures SortKey(files[j], p0, p1).Ok?
    {
      if j > 0 {
        assert files[j] == files[1..][j - 1];
      }
    }
  }

  /** The video input order: the files sorted by their integer key, or the
      `ValueError` of the first name that is not an integer once stripped,
      which abandons the directory. */
  function OrderForVideo(files: seq<string>, p0: string, p1: string): (r: Result<seq<string>, ParseError>)
    ensures r.Ok? <==> AllKeyed(files, p0, p1)
    ensures r.Err? ==> exists i :: (0 <= i < |files| && SortKey(files[i], p0, p1) == Err(r.error) &&
      forall j :: 0 <= j < i ==> SortKey(files[j], p0, p1).Ok?)
    ensures r.Ok? ==> (multiset(r.value) == multiset(files) && AllKeyed(r.value, p0, p1) &&
      SortedByKey(r.value, p0, p1))
  {
    match FirstKeyError(files, p0, p1)
    case Some(e) => Err(e)
    case None => Ok(SortByKey(files, p0, p1))
  }

  /** A dump file written with prefix `p`, one of the two prefixes the key
      strips, gets its frame counter back as key. The prefixes must be of
      equal length (at least five, longer than ".bin"), start with a
      character that is no digit, and neither head may reappear inside the
      other prefix. */
  lemma SaverNameKey(p0: string, p1: string, p: string, n: nat)
    requires p == p0 || p == p1
    requires |p0| == |p1| >= 5 && p0 != p1
    requires UniqueHead(p0) && UniqueHead(p1) && !IsDigit(p0[0]) && !IsDigit(p1[0])
    requires forall j :: 1 <= j < |p1| ==> p1[j] != p0[0]
    requires forall j :: 1 <= j < |p0| ==> p0[j] != p1[0]
    ensures SortKey(p + NatToString(n) + ".bin", p0, p1) == Ok(n)
  {
    var digits := NatToString(n);
    StripPrefixes(p0, p1, p, digits);
    StripBin(digits);
    DigitsValueOfNatToString(n);
  }

  /** Both prefix replacements together remove exactly the leading prefix. */
  lemma StripPrefixes(p0: string, p1: string, p: string, digits: string)
    requires p == p0 || p == p1
    requires |p0| == |p1| >= 5 && p0 != p1
    requires UniqueHead(p0) && UniqueHead(p1) && !IsDigit(p0[0]) && !IsDigit(p1[0])
    requires forall j :: 1 <= j < |p1| ==> p1[j] != p0[0]
    requires forall j :: 1 <= j < |p0| ==> p0[j] != p1[0]
    requires AllDigits(digits)
    ensures Replace(Replace(p + digits + ".bin", p0, ""), p1, "") == digits + ".bin"
  {
    var t := digits + ".bin";
    TailFree(digits, p0);
    TailFree(digits, p1);
    assert p + digits + ".bin" == p + t;
    if p == p0 {
      StripLeading(p0, t);
      ReplaceAbsent(t, p1, "");
    } else {
      OtherPrefixAbsent(p1, p0, t);
      ReplaceAbsent(p1 + t, p0, "");
      StripLeading(p1, t);
    }
  }

  /** Removing a pattern with a unique head from `pat + t`, where `t` does
      not contain it, leaves `t`. */
  lemma StripLeading(pat: string, t: string)
    requires UniqueHead(pat) && NoOccurrence(t, pat)
    ensures Replace(pat + t, pat, "") == t
  {
    ReplaceAround("", pat, "", t);
    assert "" + pat + t == pat + t;
    ReplaceAbsent(t, pat, "");
  }

  /** Removing ".bin" from a name whose stem has no '.' leaves the stem. */
  lemma StripBin(stem: string)
    requires forall i :: 0 <= i < |stem| ==> stem[i] != '.'
    ensures Replace(stem + ".bin", ".bin", "") == stem
  {
    BinHead();
    ReplaceTrailingByHead(stem, ".bin");
  }

  /** ".bin" starts with its only '.'. */
  lemma BinHead()
    ensures UniqueHead(".bin") && ".bin"[0] == '.'
  {
    assert ".bin"[1] == 'b' && ".bin"[2] == 'i' && ".bin"[3] == 'n';
  }

  /** A prefix headed by a non-digit cannot occur in digits followed by
      ".bin" when it is longer than ".bin". */
  lemma TailFree(digits: string, pat: string)
    requires AllDigits(digits) && |pat| >= 5 && !IsDigit(pat[0])
    ensures NoOccurrence(digits + ".bin", pat)
  {
    var t := digits + ".bin";
    forall i | 0 <= i < |t| && i + |pat| <= |t|
      ensures t[i] != pat[0]
    {
      assert i < |digits|;
      assert t[i] == digits[i];
    }
    NoOccurrenceByHead(t, pat);
  }

  /** `q` does not occur in `p + t` when it differs from `p` at the start
      and its head appears neither later in `p` nor in `t`. */
  lemma OtherPrefixAbsent(p: string, q: string, t: string)
    requires |p| == |q| > 0 && p != q
    requires forall j :: 1 <= j < |p| ==> p[j] != q[0]
    requires NoOccurrence(t, q)
    ensures NoOccurrence(p + t, q)
  {
    var s := p + t;
    forall i: nat | i < |s|
      ensures !MatchAt(s, q, i)
    {
      if i == 0 {
        if |q| <= |s| {
          assert s[..|q|] == p;
        }
      } else if i < |p| {
        assert s[i] == p[i];
        if i + |q| <= |s| {
          assert s[i .. i + |q|][0] == s[i];
        }
      } else {
        assert !MatchAt(t, q, i - |p|);
        if i + |q| <= |s| {
          assert s[i .. i + |q|] == t[i - |p| .. i - |p| + |q|];
        }
      }
    }
  }

  /** The image-format saver's prefixes: "image0-12.bin" sorts under 12. */
  lemma ImageNameKey(n: nat)
    ensures SortKey("image0-" + NatToString(n) + ".bin", "image0-", "image1-") == Ok(n)
    ensures SortKey("image1-" + NatToString(n) + ".bin", "image0-", "image1-") == Ok(n)
  {
    SaverNameKey("image0-", "image1-", "image0-", n);
    SaverNameKey("image0-", "image1-", "image1-", n);
  }

  /** The prefixes the video sort strips for a GenDC directory, as written. */
  function GenDCSortPrefixesAsWritten(): (r: (string, string))
    ensures r.0 != SaverGenDCPrefixes().0 && r.1 != SaverGenDCPrefixes().1
  {
    ("gendc_0-", "gendc_1-")
  }

  /** The prefixes the GenDC saver writes, which the sort must strip. */
  function SaverGenDCPrefixes(): (r: (string, string))
    ensures UniqueHead(r.0) && UniqueHead(r.1)
  {
    ("gendc0-", "gendc1-")
  }

  /** With the prefixes as written, no name the GenDC saver produces has a
      key, for either camera: "gendc0-N.bin" is stripped to "gendc0-N" and
      "gendc1-N.bin" to "gendc1-N", which `int` rejects, so every GenDC
      directory is abandoned before any frame is written. */
  lemma GenDCSortAsWrittenFails(n: nat)
    ensures var (p0, p1) := GenDCSortPrefixesAsWritten();
      SortKey("gendc0-" + NatToString(n) + ".bin", p0, p1).Err? &&
      SortKey("gendc1-" + NatToString(n) + ".bin", p0, p1).Err?
  {
    SaverNameHasNoKey("gendc0-", n);
    SaverNameHasNoKey("gendc1-", n);
  }

  /** One saver prefix: its names keep the prefix through the sort key and
      so fail to parse. */
  lemma SaverNameHasNoKey(saver: string, n: nat)
    requires saver == "gendc0-" || saver == "gendc1-"
    ensures SortKey(saver + NatToString(n) + ".bin", "gendc_0-", "gendc_1-").Err?
  {
    var digits := NatToString(n);
    var a := saver + digits;
    var s := a + ".bin";
    assert saver + NatToString(n) + ".bin" == s;
    ConverterPrefixAbsent(saver, digits, "gendc_0-");
    ConverterPrefixAbsent(saver, digits, "gendc_1-");
    ReplaceAbsent(s, "gendc_0-", "");
    ReplaceAbsent(s, "gendc_1-", "");
    forall i | 0 <= i < |a|
      ensures a[i] != '.'
    {
      if i >= 7 {
        assert a[i] == digits[i - 7];
      } else {
        assert a[i] == saver[i];
      }
    }
    StripBin(a);
    assert a[0] == 'g';
  }

  /** "gendc_0-" and "gendc_1-" occur nowhere in a name the GenDC saver
      writes: at the start the sixth character is the camera digit, not '_',
      and their head 'g' appears nowhere else. */
  lemma ConverterPrefixAbsent(saver: string, digits: string, q: string)
    requires saver == "gendc0-" || saver == "gendc1-"
    requires AllDigits(digits)
    requires q == "gendc_0-" || q == "gendc_1-"
    ensures NoOccurrence(saver + digits + ".bin", q)
  {
    var s := saver + digits + ".bin";
    forall i: nat | i < |s|
      ensures !MatchAt(s, q, i)
    {
      if i + |q| <= |s| {
        if i == 0 {
          assert s[5] == saver[5] && saver[5] != '_' && q[5] == '_';
          assert s[..|q|][5] != q[5];
        } else {
          assert s[i .. i + |q|][0] == s[i];
          if i < 7 {
            assert s[i] == saver[i];
          } else {
            assert s[i] == digits[i - 7];
          }
        }
      }
    }
  }

  /** With the saver's own prefixes the same names get their counters. */
  lemma GenDCSortCorrected(n: nat)
    ensures var (p0, p1) := SaverGenDCPrefixes();
      SortKey("gendc0-" + NatToString(n) + ".bin", p0, p1) == Ok(n) &&
      SortKey("gendc1-" + NatToString(n) + ".bin", p0, p1) == Ok(n)
  {
    SaverNameKey("gendc0-", "gendc1-", "gendc0-", n);
    SaverNameKey("gendc0-", "gendc1-", "gendc1-", n);
  }

  /** The name the image saver gives dump number `n` of the first camera. */
  function DumpName(n: nat): string
  {
    "image0-" + NatToString(n) + ".bin"
  }

  /** Numeric, not lexicographic: dump `b` is read after dump `a < b`
      whatever their digit strings, so "image0-10.bin" follows
      "image0-2.bin". */
  lemma NumericOrder(a: nat, b: nat)
    requires a < b
    ensures OrderForVideo([DumpName(b), DumpName(a)], "image0-", "image1-") == Ok([DumpName(a), DumpName(b)])
  {
    ImageNameKey(a);
    ImageNameKey(b);
    KeyedPairOrder(DumpName(b), DumpName(a), "image0-", "image1-");
  }

  /** Two names whose keys parse are read smaller key first, whatever
      their listing order. */
  lemma KeyedPairOrder(x: string, y: string, p0: string, p1: string)
    requires SortKey(x, p0, p1).Ok? && SortKey(y, p0, p1).Ok?
    requires SortKey(y, p0, p1).value < SortKey(x, p0, p1).value
    ensures OrderForVideo([x, y], p0, p1) == Ok([y, x])
  {
    assert AllKeyed([x, y], p0, p1);
    SortTwo(x, y, f => Key(f, p0, p1));
  }

  /** Sorting a pair out of key order swaps it. */
  lemma SortTwo<T>(x: T, y: T, key: T -> int)
    requires key(y) < key(x)
    ensures SortBy([x, y], key) == [y, x]
  {
    assert [x, y][1..] == [y];
    assert [y][1..] == [];
    assert SortBy([y], key) == [y];
    assert InsertBy(x, [y], key) == [y] + InsertBy(x, [], key);
  }

  /** What `read_config` returned for a directory. `Missing` is an empty
      result: the sidecar is missing or unreadable, or holds the empty
      object `{}`, all of which take the `len(sensor_info) == 0` branch.
      `Config` is a non-empty settings object, with or without an integer
      `group_id`. */
  datatype Sidecar = Missing | Config(groupId: Option<int>)

  /** Where a converted directory goes: `None` to stay put; an object
      without `group_id` raises `KeyError`, which ends the renaming. */
  function GroupTarget(dir: string, sidecar: Sidecar): (r: Result<Option<string>, ConvertError>)
    ensures r.Err? <==> sidecar == Config(None)
    ensures r.Err? ==> r.error == MissingGroupId
    ensures r == Ok(None) <==> sidecar == Missing || sidecar == Config(Some(0))
  {
    match sidecar
    case Missing => Ok(None)
    case Config(None) => Err(MissingGroupId)
    case Config(Some(g)) =>
      if g != 0 then Ok(Some(Replace(dir, "group0", "group" + IntToString(g)))) else Ok(None)
  }

  /** A directory with one "group0" component moves to the same path with
      that component renamed to `group{id}`, and so to a different path. */
  lemma GroupRename(pre: string, post: string, g: int)
    requires g != 0
    requires NoOccurrence(pre, "group0") && NoOccurrence(post, "group0")
    ensures GroupTarget(pre + "group0" + post, Config(Some(g))) ==
      Ok(Some(pre + "group" + IntToString(g) + post))
    ensures pre + "group" + IntToString(g) + post != pre + "group0" + post
  {
    var rep := "group" + IntToString(g);
    calc {
      Replace(pre + "group0" + post, "group0", rep);
      { assert UniqueHead("group0");
        ReplaceAround(pre, "group0", rep, post); }
      Replace(pre, "group0", rep) + rep + Replace(post, "group0", rep);
      { ReplaceAbsent(pre, "group0", rep);
        ReplaceAbsent(post, "group0", rep); }
      pre + rep + post;
      pre + "group" + IntToString(g) + post;
    }
    RenamedDiffers(pre, post, g);
  }

  /** `group{id}` differs from "group0" in its sixth character for any
      non-zero id. */
  lemma RenamedDiffers(pre: string, post: string, g: int)
    requires g != 0
    ensures pre + "group" + IntToString(g) + post != pre + "group0" + post
  {
    var moved := pre + "group" + IntToString(g) + post;
    var kept := pre + "group0" + post;
    assert moved[|pre| + 5] == IntToString(g)[0];
    assert kept[|pre| + 5] == '0';
  }

  /** A directory without "group0" in its path is "moved" onto itself. */
  lemma GroupRenameWithoutMarker(dir: string, g: int)
    requires g != 0 && NoOccurrence(dir, "group0")
    ensures GroupTarget(dir, Config(Some(g))) == Ok(Some(dir))
  {
    ReplaceAbsent(dir, "group0", "group" + IntToString(g));
  }
}

=== FILE: frame_queue.dfy ===
/** The frame hand-off between the capture thread and the display loop of
    camera_calibration_tool.py, as sequential steps on an immutable queue.
    The display polls the shared FIFO once per loop turn: a redirect (the
    GUI switched between live and save mode) or a backlog above
    `MAX_BUF_SIZE` empties it first, then a non-blocking `get` takes the
    oldest item if there is one. */
module FrameQueue {
  import opened Wrappers

  /** `MAX_BUF_SIZE`. */
  const MaxBufSize: nat := 50

  /** The queue contents, oldest first, and the `is_redirected` flag. */
  datatype Consumer<T> = Consumer(pending: seq<T>, redirected: bool)

  /** The state after a poll and the item it took, if any. */
  datatype Poll<T> = Poll(next: Consumer<T>, item: Option<T>)

  /** `clear_queue()`: everything queued is dropped; the redirect flag is
      the display's own and is left alone. */
  function ClearQueue<T>(c: Consumer<T>): (r: Consumer<T>)
    ensures r.pending == [] && r.redirected == c.redirected
  {
    c.(pending := [])
  }

  /** One turn of the display loop up to the dequeue. */
  function PollStep<T>(c: Consumer<T>): (p: Poll<T>)
    ensures !p.next.redirected
    ensures c.redirected ==> p.next.pending == [] && p.item == None
    ensures !c.redirected && |c.pending| > MaxBufSize ==> p.next.pending == [] && p.item == None
    ensures !c.redirected && |c.pending| <= MaxBufSize ==>
      (|c.pending| == 0 ==> p.next.pending == [] && p.item == None) &&
      (|c.pending| > 0 ==> p.item == Some(c.pending[0]) && p.next.pending == c.pending[1..])
    ensures |p.next.pending| < MaxBufSize
    ensures p.item.Some? ==> p.next.pending == c.pending[1..] && p.item.value == c.pending[0]
  {
    var flushed :=
      if c.redirected then ClearQueue(c).(redirected := false)
      else if |c.pending| > MaxBufSize then ClearQueue(c)
      else c;
    if |flushed.pending| == 0 then Poll(flushed, None)
    else Poll(flushed.(pending := flushed.pending[1..]), Some(flushed.pending[0]))
  }

  /** What happens to the queue: the capture thread puts an item, the GUI
      raises the redirect flag, or the display loop takes a turn. */
  datatype Event<T> = Put(item: T) | Redirect | Turn

  /** A put joins the back of the queue and shows nothing, a redirect only
      raises the flag, a turn is a poll; no event ever invents an item. */
  function Step<T>(c: Consumer<T>, e: Event<T>): (p: Poll<T>)
    ensures e.Put? ==> p.item.None? && p.next.pending == c.pending + [e.item] && p.next.redirected == c.redirected
    ensures e.Redirect? ==> p.item.None? && p.next.pending == c.pending && p.next.redirected
    ensures e.Turn? ==> p == PollStep(c)
    ensures |Taken(p)| + |p.next.pending| <= |c.pending| + |PutOf(e)|
  {
    match e
    case Put(x) => Poll(c.(pending := c.pending + [x]), None)
    case Redirect => Poll(c.(redirected := true), None)
    case Turn => PollStep(c)
  }

  /** The item a poll took, as a sequence of zero or one items. */
  function Taken<T>(p: Poll<T>): seq<T>
  {
    if p.item.Some? then [p.item.value] else []
  }

  /** The item an event puts, as a sequence of zero or one items. */
  function PutOf<T>(e: Event<T>): seq<T>
  {
    if e.Put? then [e.item] else []
  }

  /** A sequence of events from state `c`: the final state and the items
      the display took, in the order it took them. */
  function Run<T>(c: Consumer<T>, es: seq<Event<T>>): (r: (Consumer<T>, seq<T>))
    ensures |r.1| + |r.0.pending| <= |c.pending| + |Puts(es)|
    decreases |es|
  {
    if |es| == 0 then (c, [])
    else
      var (mid, got) := Run(c, es[..|es| - 1]);
      var p := Step(mid, es[|es| - 1]);
      (p.next, got + Taken(p))
  }

  /** Everything put, in order. */
  function Puts<T>(es: seq<Event<T>>): (r: seq<T>)
    ensures |r| <= |es|
  {
    if |es| == 0 then [] else Puts(es[..|es| - 1]) + PutOf(es[|es| - 1])
  }

  /** `a` is `b` with some elements left out. */
  ghost predicate IsSubseq<T>(a: seq<T>, b: seq<T>)
    decreases |b|
  {
    |a| == 0 ||
    (|b| > 0 &&
     ((a[|a| - 1] == b[|b| - 1] && IsSubseq(a[..|a| - 1], b[..|b| - 1])) || IsSubseq(a, b[..|b| - 1])))
  }

  lemma {:induction false} SubseqExtend<T>(a: seq<T>, b: seq<T>, c: seq<T>)
    requires IsSubseq(a, b)
    ensures IsSubseq(a, b + c)
    decreases |c|
  {
    if |c| > 0 && |a| > 0 {
      SubseqExtend(a, b, c[..|c| - 1]);
      assert (b + c)[..|b + c| - 1] == b + c[..|c| - 1];
      assert IsSubseq(a, (b + c)[..|b + c| - 1]);
    } else if |c| == 0 {
      assert b + c == b;
    }
  }

  lemma SubseqAppend<T>(a: seq<T>, b: seq<T>, x: T)
    requires IsSubseq(a, b)
    ensures IsSubseq(a + [x], b + [x])
  {
    assert (a + [x])[..|a|] == a;
    assert (b + [x])[..|b|] == b;
  }

  /** The queue is the most recent part of `input`, and what was taken is
      the part before it with some items dropped. */
  ghost predicate InOrder<T>(pending: seq<T>, got: seq<T>, input: seq<T>)
  {
    |pending| <= |input| && pending == input[|input| - |pending|..] &&
    IsSubseq(got, input[..|input| - |pending|])
  }

  /** Each event keeps the order invariant. */
  lemma StepInOrder<T>(mid: Consumer<T>, got: seq<T>, before: seq<T>, e: Event<T>)
    requires InOrder(mid.pending, got, before)
    ensures var p := Step(mid, e); InOrder(p.next.pending, got + Taken(p), before + PutOf(e))
  {
    var cut := |before| - |mid.pending|;
    var p := Step(mid, e);
    match e
    case Put(x) =>
      var input := before + [x];
      assert input[..|input| - |p.next.pending|] == before[..cut];
      assert got + Taken(p) == got;
    case Redirect =>
      assert before + PutOf(e) == before;
      assert got + Taken(p) == got;
    case Turn =>
      assert before + PutOf(e) == before;
      if p.item.Some? {
        assert before[..cut + 1] == before[..cut] + [mid.pending[0]];
        SubseqAppend(got, before[..cut], mid.pending[0]);
      } else {
        assert got + Taken(p) == got;
        assert before == before[..cut] + mid.pending;
        SubseqExtend(got, before[..cut], mid.pending);
        assert before[..|before| - |p.next.pending|] == before;
      }
  }

  /** FIFO discipline over any run: the queue is always the most recent
      part of the input (everything queued before the run, then everything
      put), and the items taken, followed by what is still queued, are that
      input with some items dropped and none reordered or repeated. */
  lemma {:induction false} RunKeepsOrder<T>(c: Consumer<T>, es: seq<Event<T>>)
    ensures InOrder(Run(c, es).0.pending, Run(c, es).1, c.pending + Puts(es))
    decreases |es|
  {
    if |es| == 0 {
      assert c.pending + Puts(es) == c.pending;
      assert c.pending[..0] == [];
    } else {
      var init := es[..|es| - 1];
      RunKeepsOrder(c, init);
      var (mid, got) := Run(c, init);
      StepInOrder(mid, got, c.pending + Puts(init), es[|es| - 1]);
      assert c.pending + Puts(es) == (c.pending + Puts(init)) + PutOf(es[|es| - 1]);
    }
  }

  /** One event that neither redirects nor meets a backlog above the
      watermark loses nothing. */
  lemma StepLossless<T>(mid: Consumer<T>, got: seq<T>, before: seq<T>, e: Event<T>)
    requires !mid.redirected && got + mid.pending == before
    requires !e.Redirect? && (e.Turn? ==> |mid.pending| <= MaxBufSize)
    ensures var p := Step(mid, e);
      !p.next.redirected && got + Taken(p) + p.next.pending == before + PutOf(e)
  {
    var p := Step(mid, e);
    if e.Turn? && p.item.Some? {
      assert mid.pending == [mid.pending[0]] + mid.pending[1..];
    }
  }

  /** No redirect, and no turn of the display meets a backlog above the
      watermark. */
  predicate Calm<T>(c: Consumer<T>, es: seq<Event<T>>)
  {
    forall k :: 0 <= k < |es| ==>
      !es[k].Redirect? && (es[k].Turn? ==> |Run(c, es[..k]).0.pending| <= MaxBufSize)
  }

  /** Without flushes nothing is lost: in a calm run the items taken and
      the items still queued are exactly the input, in order. */
  lemma {:induction false} LosslessRun<T>(c: Consumer<T>, es: seq<Event<T>>)
    requires !c.redirected && Calm(c, es)
    ensures !Run(c, es).0.redirected
    ensures Run(c, es).1 + Run(c, es).0.pending == c.pending + Puts(es)
    decreases |es|
  {
    if |es| > 0 {
      var init := es[..|es| - 1];
      forall k | 0 <= k < |init|
        ensures !init[k].Redirect? && (init[k].Turn? ==> |Run(c, init[..k]).0.pending| <= MaxBufSize)
      {
        assert init[k] == es[k];
        assert init[..k] == es[..k];
      }
      LosslessRun(c, init);
      var (mid, got) := Run(c, init);
      var e := es[|es| - 1];
      StepLossless(mid, got, c.pending + Puts(init), e);
      assert c.pending + Puts(es) == (c.pending + Puts(init)) + PutOf(e);
    }
  }

  /** After `clear_queue()` the next turn of the display takes nothing and
      leaves the queue empty. */
  lemma ClearedPollTakesNothing<T>(c: Consumer<T>)
    ensures PollStep(ClearQueue(c)).item == None
    ensures PollStep(ClearQueue(c)).next.pending == []
  {
  }

  /** No stale entry survives `clear_queue()`: whatever happens afterwards,
      the display takes only entries put after the clear, in order, and the
      queue holds only the most recent of them. An entry stands for the
      buffer it refers to, not for that buffer's contents at put time. */
  lemma NoStaleFrames<T>(c: Consumer<T>, es: seq<Event<T>>)
    ensures IsSubseq(Run(ClearQueue(c), es).1, Puts(es))
    ensures var pending := Run(ClearQueue(c), es).0.pending;
      |pending| <= |Puts(es)| && pending == Puts(es)[|Puts(es)| - |pending|..]
  {
    var input := Puts(es);
    RunKeepsOrder(ClearQueue(c), es);
    assert ClearQueue(c).pending + input == input;
    var r := Run(ClearQueue(c), es);
    SubseqOfPrefix(r.1, input, |input| - |r.0.pending|);
  }

  /** A subsequence of a prefix is a subsequence of the whole. */
  lemma SubseqOfPrefix<T>(a: seq<T>, b: seq<T>, k: nat)
    requires k <= |b| && IsSubseq(a, b[..k])
    ensures IsSubseq(a, b)
  {
    SubseqExtend(a, b[..k], b[k..]);
    assert b[..k] + b[k..] == b;
  }

  /** A flush drops the whole backlog: 51 queued items and one turn leave an
      empty queue and nothing displayed. */
  lemma WatermarkFlush<T>(xs: seq<T>)
    requires |xs| == MaxBufSize + 1
    ensures PollStep(Consumer(xs, false)) == Poll(Consumer([], false), None)
  {
  }

  /** Exactly 50 queued items are kept: the turn shows the oldest. */
  lemma WatermarkKeep<T>(xs: seq<T>)
    requires |xs| == MaxBufSize
    ensures PollStep(Consumer(xs, false)) == Poll(Consumer(xs[1..], false), Some(xs[0]))
  {
  }
}

=== FILE: gendc_scan.dfy ===
/** The GenDC container scanner of convert.py
    (`convert_single_gendc_bin_to_image` and `convert_single_gendc_bin_to_video`).
    The cursor starts at 0 and moves by the configured payload size after
    every attempt, whatever the attempt's outcome. Parsing a container is
    done by a library outside this model; it enters as the `parse` oracle. */
module GenDCScan {
  import opened Wrappers
  import opened Bytes
  import opened Reconstruct

  /** What the container library reports for the bytes from a cursor on:
      the parse raised, the container has no intensity component, or the
      first part of its first intensity component with its TypeSpecific3
      word and its data. */
  datatype Parsed =
    | ParseFailure
    | NoIntensity
    | Intensity(typeSpecific3: nat, data: seq<Byte>)

  /** The outcome of one attempt: an exception that is logged and skipped,
      a container without an image (skipped silently), or a frame. */
  datatype Event =
    | Unreadable
    | NoImage
    | Frame(rec: Record)

  /** The frame id: the first four bytes of TypeSpecific3 written as eight
      little-endian bytes. A value that needs more than eight bytes makes
      `to_bytes` raise. */
  function FrameId(typeSpecific3: nat): (id: Option<nat>)
    ensures id.Some? <==> typeSpecific3 < Pow256(8)
    ensures id.Some? ==> id.value == typeSpecific3 % 0x1_0000_0000
  {
    if typeSpecific3 < Pow256(8) then
      ToLePrefix(typeSpecific3, 8, 4);
      Pow256Four();
      Some(LeValue(ToLe(typeSpecific3, 8)[..4]))
    else None
  }

  /** One attempt: `np.frombuffer` raises unless the data is a whole number
      of elements; otherwise the record carries every decoded element. */
  function EventOf(p: Parsed, w: Width): (ev: Event)
    ensures ev.NoImage? <==> p.NoIntensity?
    ensures ev.Frame? <==> p.Intensity? && p.typeSpecific3 < Pow256(8) && |p.data| % w.Bytes() == 0
    ensures ev.Frame? ==>
      ev.rec.frameId == p.typeSpecific3 % 0x1_0000_0000 &&
      Fits(ev.rec.samples, w) && Encode(ev.rec.samples, w) == p.data
  {
    match p
    case ParseFailure => Unreadable
    case NoIntensity => NoImage
    case Intensity(ts, data) =>
      match FrameId(ts)
      case None => Unreadable
      case Some(id) =>
        if |data| % w.Bytes() != 0 then Unreadable
        else
          EncodeDecode(data, w);
          Frame(Record(id, Decode(data, w)))
  }

  /** Byte position of attempt `k`. */
  function CursorAt(payload: nat, k: nat): nat
  {
    if k == 0 then 0 else CursorAt(payload, k - 1) + payload
  }

  lemma {:induction false} CursorClosedForm(payload: nat, k: nat)
    ensures CursorAt(payload, k) == k * payload
  {
    if k > 0 {
      CursorClosedForm(payload, k - 1);
      MulSplit(k - 1, 1, payload);
    }
  }

  /** The scan loop from iteration `i` with its byte `cursor`. */
  function ScanFrom(content: seq<Byte>, parse: seq<Byte> -> Parsed, payload: nat, w: Width,
                    limit: nat, i: nat, cursor: nat): (evs: seq<Event>)
    requires i <= limit
    ensures |evs| <= limit - i
    decreases limit - i
  {
    if i == limit || cursor >= |content| then []
    else
      [EventOf(parse(content[cursor..]), w)] +
        ScanFrom(content, parse, payload, w, limit, i + 1, cursor + payload)
  }

  /** Attempt `k` of the loop started at iteration `i` is attempt `i + k` of
      the file. */
  lemma {:induction false} ScanFromAt(content: seq<Byte>, parse: seq<Byte> -> Parsed, payload: nat, w: Width,
                                      limit: nat, i: nat, cursor: nat, k: nat)
    requires i <= limit && cursor == CursorAt(payload, i)
    requires k < |ScanFrom(content, parse, payload, w, limit, i, cursor)|
    ensures CursorAt(payload, i + k) < |content|
    ensures ScanFrom(content, parse, payload, w, limit, i, cursor)[k] ==
      EventOf(parse(content[CursorAt(payload, i + k)..]), w)
    decreases k
  {
    if k > 0 {
      ScanFromAt(content, parse, payload, w, limit, i + 1, cursor + payload, k - 1);
    }
  }

  /** The loop started at iteration `i` ends when the cursor leaves the
      file, unless the iteration limit comes first. */
  lemma {:induction false} ScanFromEnd(content: seq<Byte>, parse: seq<Byte> -> Parsed, payload: nat, w: Width,
                                       limit: nat, i: nat, cursor: nat)
    requires i <= limit && cursor == CursorAt(payload, i)
    ensures var n := |ScanFrom(content, parse, payload, w, limit, i, cursor)|;
      i + n == limit || CursorAt(payload, i + n) >= |content|
    decreases limit - i
  {
    if i < limit && cursor < |content| {
      ScanFromEnd(content, parse, payload, w, limit, i + 1, cursor + payload);
    }
  }

  /** The attempts made on one GenDC dump file: attempt `k` parses the bytes
      from `k * payload` on, and attempts go on while the cursor is inside
      the file, up to `limit` of them. */
  function Scan(content: seq<Byte>, parse: seq<Byte> -> Parsed, payload: nat, w: Width, limit: nat): (evs: seq<Event>)
    ensures |evs| <= limit
    ensures forall k :: 0 <= k < |evs| ==>
              CursorAt(payload, k) < |content| && evs[k] == EventOf(parse(content[CursorAt(payload, k)..]), w)
    ensures |evs| == limit || CursorAt(payload, |evs|) >= |content|
  {
    var evs := ScanFrom(content, parse, payload, w, limit, 0, 0);
    forall k | 0 <= k < |evs|
      ensures CursorAt(payload, k) < |content| && evs[k] == EventOf(parse(content[CursorAt(payload, k)..]), w)
    {
      ScanFromAt(content, parse, payload, w, limit, 0, 0, k);
    }
    ScanFromEnd(content, parse, payload, w, limit, 0, 0);
    evs
  }

  /** How many attempts a file gets: one per payload-sized step that starts
      inside the file, at most `limit`. A zero payload never moves the
      cursor, so a non-empty file is parsed `limit` times at offset 0. */
  lemma AttemptCount(content: seq<Byte>, parse: seq<Byte> -> Parsed, payload: nat, w: Width, limit: nat)
    ensures payload == 0 ==>
      |Scan(content, parse, payload, w, limit)| == (if |content| > 0 then limit else 0)
    ensures payload > 0 ==>
      |Scan(content, parse, payload, w, limit)| == Min(limit, (|content| + payload - 1) / payload)
  {
    var n := |Scan(content, parse, payload, w, limit)|;
    var c := |content|;
    CursorClosedForm(payload, n);
    if n > 0 {
      CursorClosedForm(payload, n - 1);
    }
    if payload > 0 {
      var q := (c + payload - 1) / payload;
      if n < limit {
        // n * payload >= c and (n - 1) * payload < c, so n is the ceiling
        assert n * payload >= c;
        if n > 0 {
          assert (n - 1) * payload < c;
        }
        CeilingUnique(c, payload, n);
      } else {
        assert n == limit;
        if n > 0 {
          assert (n - 1) * payload < c;
          CeilingAtLeast(c, payload, n);
        }
      }
    }
  }

  function Min(a: nat, b: nat): nat
  {
    if a <= b then a else b
  }

  /** `n` is the ceiling of `c / p` when `(n - 1) * p < c <= n * p`. */
  lemma CeilingUnique(c: nat, p: nat, n: nat)
    requires p > 0 && n * p >= c && (n == 0 || (n - 1) * p < c)
    ensures (c + p - 1) / p == n
  {
    if n == 0 {
      assert c == 0;
    } else {
      MulSplit(n - 1, 1, p);
      DivModUnique(c + p - 1, p, n, c + p - 1 - n * p);
    }
  }

  /** The ceiling of `c / p` is at least `n` when `(n - 1) * p < c`. */
  lemma CeilingAtLeast(c: nat, p: nat, n: nat)
    requires p > 0 && n > 0 && (n - 1) * p < c
    ensures (c + p - 1) / p >= n
  {
    MulSplit(n - 1, 1, p);
    var q := (c + p - 1) / p;
    var r := (c + p - 1) % p;
    assert c + p - 1 == p * q + r;
  }

  /** The still-image conversion of one GenDC dump file: what attempt `k`
      produces, nothing for a skipped attempt and one output for a frame. */
  function ImagesOf(content: seq<Byte>, parse: seq<Byte> -> Parsed, payload: nat, limit: nat, cfg: Render)
    : (outs: seq<seq<Output>>)
    ensures |outs| == |Scan(content, parse, payload, cfg.storage, limit)|
    ensures forall k :: 0 <= k < |outs| ==>
              var ev := Scan(content, parse, payload, cfg.storage, limit)[k];
              (ev.Frame? <==> |outs[k]| == 1) &&
              (ev.Frame? ==> outs[k] == [StillOutput(ev.rec, cfg, false)]) &&
              (!ev.Frame? ==> outs[k] == [])
  {
    var evs := Scan(content, parse, payload, cfg.storage, limit);
    seq(|evs|, k requires 0 <= k < |evs| =>
      if evs[k].Frame? then [StillOutput(evs[k].rec, cfg, false)] else [])
  }

  /** The GenDC still path, written without the clip, produces the same
      output for a frame as the simple path's still step. */
  lemma ImagesMatchSimplePath(content: seq<Byte>, parse: seq<Byte> -> Parsed, payload: nat, limit: nat,
                              cfg: Render, k: nat)
    requires k < |Scan(content, parse, payload, cfg.storage, limit)|
    requires Scan(content, parse, payload, cfg.storage, limit)[k].Frame?
    ensures var rec := Scan(content, parse, payload, cfg.storage, limit)[k].rec;
      Fits(rec.samples, cfg.storage) &&
      ImagesOf(content, parse, payload, limit, cfg)[k] == [StillOutput(rec, cfg, true)]
  {
    var rec := Scan(content, parse, payload, cfg.storage, limit)[k].rec;
    StillPathsAgree(rec, cfg);
  }

  /** The video conversion of one GenDC dump file as written: a complete
      mono frame reaches no `write` call. */
  function VideoOfAsWritten(content: seq<Byte>, parse: seq<Byte> -> Parsed, payload: nat, limit: nat, cfg: Render)
    : (outs: seq<seq<Output>>)
    ensures |outs| == |Scan(content, parse, payload, cfg.storage, limit)|
    ensures forall k :: 0 <= k < |outs| ==>
              var ev := Scan(content, parse, payload, cfg.storage, limit)[k];
              (ev.Frame? ==> outs[k] == GenDCVideoOutputAsWritten(ev.rec, cfg)) &&
              (!ev.Frame? ==> outs[k] == [])
  {
    var evs := Scan(content, parse, payload, cfg.storage, limit);
    seq(|evs|, k requires 0 <= k < |evs| =>
      if evs[k].Frame? then GenDCVideoOutputAsWritten(evs[k].rec, cfg) else [])
  }

  /** The video conversion with the `write` taken out of the colour branch,
      as the simple-format video path has it: every frame yields one frame
      or one warning. */
  function VideoOf(content: seq<Byte>, parse: seq<Byte> -> Parsed, payload: nat, limit: nat, cfg: Render)
    : (outs: seq<seq<Output>>)
    ensures |outs| == |Scan(content, parse, payload, cfg.storage, limit)|
    ensures forall k :: 0 <= k < |outs| ==>
              var ev := Scan(content, parse, payload, cfg.storage, limit)[k];
              (ev.Frame? <==> |outs[k]| == 1) &&
              (ev.Frame? ==> outs[k] == VideoOutput(ev.rec, cfg)) &&
              (ev.Frame? && Complete(ev.rec, cfg) ==> outs[k][0].VideoFrame? || outs[k][0].MosaicVideoFrame?)
  {
    var evs := Scan(content, parse, payload, cfg.storage, limit);
    seq(|evs|, k requires 0 <= k < |evs| =>
      if evs[k].Frame? then VideoOutput(evs[k].rec, cfg) else [])
  }

  /** A one-record mono file: 2x2 Mono8 data `01 02 03 04` with frame id 7.
      As written the video gets nothing; with the write moved out of the
      colour branch it gets the frame. */
  lemma MonoVideoExample()
    ensures var parse := (bs: seq<Byte>) => Intensity(7, [1, 2, 3, 4]);
      var cfg := Render(2, 2, U8, 1, false, "mp4");
      var content: seq<Byte> := [0, 0, 0, 0];
      VideoOfAsWritten(content, parse, 4, 60, cfg) == [[]] &&
      VideoOf(content, parse, 4, 60, cfg) == [VideoOutput(Record(7, [1, 2, 3, 4]), cfg)] &&
      VideoOf(content, parse, 4, 60, cfg)[0][0].VideoFrame?
  {
    var parse := (bs: seq<Byte>) => Intensity(7, [1, 2, 3, 4]);
    var cfg := Render(2, 2, U8, 1, false, "mp4");
    var content: seq<Byte> := [0, 0, 0, 0];
    var evs := Scan(content, parse, 4, U8, 60);
    assert CursorAt(4, 1) == 4;
    assert |evs| == 1;
    assert Decode([1, 2, 3, 4], U8) == [1, 2, 3, 4];
    assert evs[0] == Frame(Record(7, [1, 2, 3, 4]));
  }
}

=== FILE: live_view.dfy ===
/** The 2-D live preview of camera_calibration_tool.py (`Display._display_2D`):
    a GenDC buffer set is read past its descriptor, every sample is
    left-aligned and reduced to 8 bits, and the frame is shown. The same
    descriptor slice feeds the colour preview (`_display_3d`). */
module LiveView {
  import opened Wrappers
  import opened Bytes
  import opened PixelFormat
  import opened Reconstruct

  /** `PayloadSize - Width * Height * depth_of_buffer // 8`; negative when
      the payload is smaller than the image. */
  function DescriptorSize(payload: nat, width: nat, height: nat, storage: Width): (d: int)
    ensures d == payload - width * height * storage.Bytes()
  {
    payload - width * height * storage.Bits() / 8
  }

  /** Python's `bs[start:]`: a negative start counts from the end, and
      both ends are clamped to the buffer. */
  function PySuffix<T>(bs: seq<T>, start: int): (r: seq<T>)
    ensures start >= 0 ==> |r| == if start >= |bs| then 0 else |bs| - start
    ensures start < 0 ==> |r| == if -start >= |bs| then |bs| else -start
    ensures forall i :: 0 <= i < |r| ==> r[i] == bs[|bs| - |r| + i]
  {
    if start >= 0 then (if start >= |bs| then [] else bs[start..])
    else if -start >= |bs| then bs
    else bs[|bs| + start..]
  }

  datatype LiveError =
    | PartialElement   // `np.frombuffer` on a length that is not a whole number of elements
    | WrongShape       // `reshape(height, width)` on the wrong number of elements

  /** One displayed sample: left-align by the coefficient (wrapping at the
      element width), then `astype(uint8)` for 8-bit buffers and
      `(x / 256).astype(uint8)` for 16-bit ones, with no clip. */
  function LivePixel(v: nat, coef: nat, storage: Width): (r: nat)
    ensures r < 256
  {
    var s := Scale(v, coef, storage);
    if storage == U8 then s % 256 else s / 256
  }

  /** The preview shows the same 8-bit value the offline converter writes
      to a jpg. */
  lemma LivePixelIsStillPixel(v: nat, coef: nat, storage: Width)
    ensures LivePixel(v, coef, storage) == StillPixel(v, coef, storage, "jpg")
  {
  }

  function LiveSamples(samples: seq<nat>, coef: nat, storage: Width): (r: seq<nat>)
    ensures |r| == |samples|
    ensures forall i :: 0 <= i < |r| ==> r[i] == LivePixel(samples[i], coef, storage)
  {
    seq(|samples|, i requires 0 <= i < |samples| => LivePixel(samples[i], coef, storage))
  }

  /** The frame a GenDC buffer yields, or the exception that ends the
      preview loop. */
  function GenDCFrame(buffer: seq<Byte>, payload: nat, width: nat, height: nat, storage: Width, coef: nat)
    : (r: Result<seq<seq<nat>>, LiveError>)
    ensures var tail := PySuffix(buffer, DescriptorSize(payload, width, height, storage));
      r.Ok? <==> |tail| == width * height * storage.Bytes()
    ensures var tail := PySuffix(buffer, DescriptorSize(payload, width, height, storage));
      r.Ok? ==> (|r.value| == height &&
                 Flatten(r.value) == LiveSamples(Decode(tail, storage), coef, storage))
  {
    var tail := PySuffix(buffer, DescriptorSize(payload, width, height, storage));
    if |tail| % storage.Bytes() != 0 then Err(PartialElement)
    else
      var samples := Decode(tail, storage);
      if |samples| != width * height then Err(WrongShape)
      else
        var pixels := LiveSamples(samples, coef, storage);
        ReshapeFlatten(pixels, height, width);
        Ok(Reshape(pixels, height, width))
  }

  /** The frame a plain image buffer (already `height x width` elements)
      yields. */
  function ImageFrame(samples: seq<nat>, width: nat, height: nat, storage: Width, coef: nat)
    : (rows: seq<seq<nat>>)
    requires |samples| == width * height
    ensures |rows| == height && Flatten(rows) == LiveSamples(samples, coef, storage)
  {
    var pixels := LiveSamples(samples, coef, storage);
    ReshapeFlatten(pixels, height, width);
    Reshape(pixels, height, width)
  }

  /** A buffer of the configured payload size (what the capture loop
      allocates) displays whenever the payload holds the image: the image
      is its last `width * height` elements. A payload smaller than the
      image always ends the preview. */
  lemma PayloadSizedBuffer(buffer: seq<Byte>, width: nat, height: nat, storage: Width, coef: nat)
    ensures var n := width * height * storage.Bytes();
      var r := GenDCFrame(buffer, |buffer|, width, height, storage, coef);
      (|buffer| >= n ==>
         r.Ok? && Flatten(r.value) == LiveSamples(Decode(buffer[|buffer| - n..], storage), coef, storage)) &&
      (|buffer| < n ==> r.Err?)
  {
    var n := width * height * storage.Bytes();
    var tail := PySuffix(buffer, DescriptorSize(|buffer|, width, height, storage));
    if |buffer| >= n {
      assert tail == buffer[|buffer| - n..];
    }
  }

  /** In simulation the payload is exactly the image (`SimPayloadSize`), so
      there is no descriptor and the whole buffer is the image. */
  lemma SimulatedPayloadHasNoDescriptor(width: nat, height: nat, f: Format)
    requires SimPayloadSize(width, height, Name(f)).Ok?
    ensures DescriptorSize(SimPayloadSize(width, height, Name(f)).value, width, height, Storage(f)) == 0
  {
    LookupName(f);
  }

  /** For a GenDC buffer laid out as descriptor then image, the preview
      shows the image samples, mapped exactly as the offline jpg converter
      maps them. */
  lemma LiveMatchesOffline(descriptor: seq<Byte>, image: seq<Byte>, width: nat, height: nat, storage: Width,
                           coef: nat)
    requires |image| == width * height * storage.Bytes()
    ensures var buffer := descriptor + image;
      var r := GenDCFrame(buffer, |buffer|, width, height, storage, coef);
      r.Ok? && Flatten(r.value) == MapPixels(Decode(image, storage), coef, storage, "jpg", true)
  {
    var buffer := descriptor + image;
    PayloadSizedBuffer(buffer, width, height, storage, coef);
    assert buffer[|buffer| - |image|..] == image;
    var d := Decode(image, storage);
    forall i | 0 <= i < |d|
      ensures LiveSamples(d, coef, storage)[i] == MapPixels(d, coef, storage, "jpg", true)[i]
    {
      LivePixelIsStillPixel(d[i], coef, storage);
    }
  }
}

=== FILE: pixel_format.dfy ===
/** The pixel-format catalog of utils.py: the `pfnc` table and everything
    derived from it (storage depth, left-align shift and coefficient,
    acquisition block name, colour pattern, simulated payload size). */
module PixelFormat {
  import opened Wrappers
  import opened Text
  import opened Bytes

  datatype Format =
    | Mono8 | Mono10 | Mono12 | Mono16
    | BayerBG8 | BayerBG10 | BayerBG12
    | BayerRG8 | BayerRG10 | BayerRG12

  /** One row of the `pfnc` table: the PFNC code, native depth and image rank. */
  datatype Entry = Entry(value: nat, depth: nat, dim: nat)

  datatype CatalogError = KeyError(name: string)

  function Name(f: Format): string
  {
    match f
    case Mono8 => "Mono8"
    case Mono10 => "Mono10"
    case Mono12 => "Mono12"
    case Mono16 => "Mono16"
    case BayerBG8 => "BayerBG8"
    case BayerBG10 => "BayerBG10"
    case BayerBG12 => "BayerBG12"
    case BayerRG8 => "BayerRG8"
    case BayerRG10 => "BayerRG10"
    case BayerRG12 => "BayerRG12"
  }

  /** The table as written; the BayerRG rows reuse the BayerBG codes. */
  function Table(f: Format): Entry
  {
    match f
    case Mono8 => Entry(0x01080001, 8, 2)
    case Mono10 => Entry(0x01100003, 10, 2)
    case Mono12 => Entry(0x01100005, 12, 2)
    case Mono16 => Entry(0x01100009, 16, 2)
    case BayerBG8 => Entry(0x0108000B, 8, 2)
    case BayerBG10 => Entry(0x0110000F, 10, 2)
    case BayerBG12 => Entry(0x01100013, 12, 2)
    case BayerRG8 => Entry(0x0108000B, 8, 2)
    case BayerRG10 => Entry(0x0110000F, 10, 2)
    case BayerRG12 => Entry(0x01100013, 12, 2)
  }

  /** `pfnc[name]`: `None` is the `KeyError` of an unknown name. */
  function Lookup(name: string): (r: Option<Format>)
    ensures r.Some? ==> Name(r.value) == name
  {
    if name == "Mono8" then Some(Mono8)
    else if name == "Mono10" then Some(Mono10)
    else if name == "Mono12" then Some(Mono12)
    else if name == "Mono16" then Some(Mono16)
    else if name == "BayerBG8" then Some(BayerBG8)
    else if name == "BayerBG10" then Some(BayerBG10)
    else if name == "BayerBG12" then Some(BayerBG12)
    else if name == "BayerRG8" then Some(BayerRG8)
    else if name == "BayerRG10" then Some(BayerRG10)
    else if name == "BayerRG12" then Some(BayerRG12)
    else None
  }

  /** Every catalog name is found, and found as itself: together with the
      contract of `Lookup`, a name is known exactly when it names a format. */
  lemma LookupName(f: Format)
    ensures Lookup(Name(f)) == Some(f)
  {
  }

  function Depth(f: Format): nat
  {
    Table(f).depth
  }

  /** The byte-aligned width of a native depth, computed as utils.py does:
      the depth itself when a multiple of 8, else `(depth // 8 + 1) * 8`.
      It is the least multiple of 8 that holds the depth. */
  function AlignedDepth(depth: nat): (r: nat)
    ensures r % 8 == 0 && depth <= r < depth + 8
  {
    if depth % 8 == 0 then depth else (depth / 8 + 1) * 8
  }

  function Required(f: Format): nat
  {
    AlignedDepth(Depth(f))
  }

  /** The numpy element type a dump of this format is stored with. */
  function Storage(f: Format): (w: Width)
    ensures w.Bits() == Required(f)
  {
    if Required(f) == 8 then U8 else U16
  }

  function Shift(f: Format): nat
  {
    Required(f) - Depth(f)
  }

  function Pow2(n: nat): (p: nat)
    ensures p >= 1
  {
    if n == 0 then 1 else 2 * Pow2(n - 1)
  }

  /** The powers of two the catalog's depths need. */
  lemma Pow2Values()
    ensures Pow2(0) == 1 && Pow2(2) == 4 && Pow2(4) == 16 && Pow2(6) == 64 && Pow2(8) == 256
    ensures Pow2(10) == 1024 && Pow2(12) == 4096 && Pow2(16) == 65536
  {
    Pow2Add(2, 2);
    Pow2Add(2, 4);
    Pow2Add(4, 4);
    Pow2Add(8, 2);
    Pow2Add(8, 4);
    Pow2Add(8, 8);
  }

  /** The left-align multiplier `pow(2, get_num_bit_shift(...))`. */
  function Coef(f: Format): nat
  {
    Pow2(Shift(f))
  }

  predicate IsEightBit(f: Format)
  {
    f == Mono8 || f == BayerBG8 || f == BayerRG8
  }

  /** `required_bit_depth(name)`: a multiple of 8 at least the native depth and
      less than 8 above it; an unknown name is a `KeyError`. */
  function RequiredBitDepth(name: string): (r: Result<nat, CatalogError>)
    ensures r.Ok? <==> Lookup(name).Some?
    ensures r.Err? ==> r.error == KeyError(name)
    ensures r.Ok? ==>
      var d := Table(Lookup(name).value).depth;
      r.value % 8 == 0 && d <= r.value < d + 8
  {
    match Lookup(name)
    case None => Err(KeyError(name))
    case Some(f) => Ok(AlignedDepth(Table(f).depth))
  }

  /** The concrete storage depths: 8 for the three 8-bit formats, 16 for every
      10-, 12- and 16-bit one. */
  lemma RequiredBitDepthValues(f: Format)
    ensures RequiredBitDepth(Name(f)) == Ok(if IsEightBit(f) then 8 else 16)
    ensures Storage(f) == if IsEightBit(f) then U8 else U16
  {
    LookupName(f);
  }

  /** `get_bit_width(name)`: the native depth. */
  function BitWidth(name: string): (r: Result<nat, CatalogError>)
    ensures r.Ok? <==> Lookup(name).Some?
    ensures r.Ok? ==> r.value == Table(Lookup(name).value).depth
    ensures r.Err? ==> r.error == KeyError(name)
  {
    match Lookup(name)
    case None => Err(KeyError(name))
    case Some(f) => Ok(Table(f).depth)
  }

  /** `get_num_bit_shift(name)`: how far native samples sit below the top of
      their storage word; between 0 and 7, and 0 exactly for whole-byte
      depths. */
  function NumBitShift(name: string): (r: Result<nat, CatalogError>)
    ensures r.Ok? <==> Lookup(name).Some?
    ensures r.Err? ==> r.error == KeyError(name)
    ensures r.Ok? ==> r.value <= 7
    ensures r.Ok? ==> (r.value == 0 <==> Table(Lookup(name).value).depth % 8 == 0)
  {
    match RequiredBitDepth(name)
    case Err(e) => Err(e)
    case Ok(req) => Ok(req - Table(Lookup(name).value).depth)
  }

  /** Width plus shift is the storage depth, for every name the catalog knows;
      the shift is 0 exactly for the 8- and 16-bit formats. */
  lemma {:induction false} ShiftCompletesWidth(name: string)
    requires Lookup(name).Some?
    ensures BitWidth(name).Ok? && NumBitShift(name).Ok? && RequiredBitDepth(name).Ok?
    ensures BitWidth(name).value + NumBitShift(name).value == RequiredBitDepth(name).value
    ensures var f := Lookup(name).value;
      NumBitShift(name).value == Shift(f) &&
      (Shift(f) == 0 <==> Depth(f) == 8 || Depth(f) == 16)
  {
    var f := Lookup(name).value;
    match f
    case Mono8 =>
    case Mono10 =>
    case Mono12 =>
    case Mono16 =>
    case BayerBG8 =>
    case BayerBG10 =>
    case BayerBG12 =>
    case BayerRG8 =>
    case BayerRG10 =>
    case BayerRG12 =>
  }

  /** The left-align multiplier moves the top native bit to the top storage
      bit: `coef * 2^depth == 2^required`. */
  lemma CoefLeftAligns(f: Format)
    ensures Coef(f) * Pow2(Depth(f)) == Pow2(Required(f))
    ensures Coef(f) == 1 <==> Depth(f) == Required(f)
  {
    Pow2Values();
    match f
    case Mono8 | BayerBG8 | BayerRG8 =>
      assert Depth(f) == 8 && Required(f) == 8;
    case Mono10 | BayerBG10 | BayerRG10 =>
      assert Depth(f) == 10 && Required(f) == 16;
    case Mono12 | BayerBG12 | BayerRG12 =>
      assert Depth(f) == 12 && Required(f) == 16;
    case Mono16 =>
      assert Depth(f) == 16 && Required(f) == 16;
  }

  lemma {:induction false} Pow2Add(a: nat, b: nat)
    ensures Pow2(a) * Pow2(b) == Pow2(a + b)
  {
    if a > 0 {
      Pow2Add(a - 1, b);
      assert Pow2(a) * Pow2(b) == 2 * (Pow2(a - 1) * Pow2(b));
    }
  }

  /** `get_bb_for_obtain_image(num_device, name)`: the acquisition block name
      built from the storage depth and the table's dim; `num_device` plays no
      part in it. */
  function BlockName(numDevice: int, name: string): (r: Result<string, CatalogError>)
    ensures r.Ok? <==> Lookup(name).Some?
    ensures r.Err? ==> r.error == KeyError(name)
    ensures r.Ok? ==> StartsWith(r.value, "image_io_u3v_cameraN_u")
  {
    match RequiredBitDepth(name)
    case Err(e) => Err(e)
    case Ok(req) =>
      var s := "image_io_u3v_cameraN_u" + NatToString(req) + "x" + NatToString(Table(Lookup(name).value).dim);
      assert s[..|"image_io_u3v_cameraN_u"|] == "image_io_u3v_cameraN_u";
      Ok(s)
  }

  /** Every catalog entry has rank 2, so the block is `..._u8x2` for the 8-bit
      formats and `..._u16x2` for all others, whatever the device count. */
  lemma BlockNameValues(numDevice: int, f: Format)
    ensures BlockName(numDevice, Name(f)) ==
      Ok(if IsEightBit(f) then "image_io_u3v_cameraN_u8x2" else "image_io_u3v_cameraN_u16x2")
    ensures EndsWith(BlockName(numDevice, Name(f)).value, "x2")
  {
    LookupName(f);
    RequiredBitDepthValues(f);
    assert Table(f).dim == 2;
    BlockStrings();
  }

  /** The two block names spelled out. */
  lemma BlockStrings()
    ensures "image_io_u3v_cameraN_u" + NatToString(8) + "x" + NatToString(2) == "image_io_u3v_cameraN_u8x2"
    ensures "image_io_u3v_cameraN_u" + NatToString(16) + "x" + NatToString(2) == "image_io_u3v_cameraN_u16x2"
    ensures EndsWith("image_io_u3v_cameraN_u8x2", "x2") && EndsWith("image_io_u3v_cameraN_u16x2", "x2")
  {
    assert NatToString(2) == "2" && NatToString(8) == "8" && NatToString(16) == "16";
  }

  datatype Pattern = BGGR | RGGB

  /** The display mode `get_device_info` derives from the format name: colour
      iff the name starts with "Bayer"; a pattern only for BayerBG / BayerRG. */
  datatype DisplayMode = MonoDisplay | ColorDisplay(pattern: Option<Pattern>)

  function DisplayModeOf(name: string): (m: DisplayMode)
    ensures m.ColorDisplay? <==> StartsWith(name, "Bayer")
    ensures m == ColorDisplay(Some(BGGR)) <==> StartsWith(name, "BayerBG")
    ensures m == ColorDisplay(Some(RGGB)) <==> StartsWith(name, "BayerRG")
    ensures m == ColorDisplay(None) <==>
      StartsWith(name, "Bayer") && !StartsWith(name, "BayerBG") && !StartsWith(name, "BayerRG")
  {
    if StartsWith(name, "Bayer") then
      if StartsWith(name, "BayerBG") then ColorDisplay(Some(BGGR))
      else if StartsWith(name, "BayerRG") then ColorDisplay(Some(RGGB))
      else ColorDisplay(None)
    else MonoDisplay
  }

  predicate IsBayer(f: Format)
  {
    !(f == Mono8 || f == Mono10 || f == Mono12 || f == Mono16)
  }

  /** On the catalog, every Bayer format gets its pattern from its name and
      every Mono format is shown in mono. */
  lemma DisplayModeOfCatalog(f: Format)
    ensures DisplayModeOf(Name(f)) ==
      if !IsBayer(f) then MonoDisplay
      else if f == BayerBG8 || f == BayerBG10 || f == BayerBG12 then ColorDisplay(Some(BGGR))
      else ColorDisplay(Some(RGGB))
  {
    var n := Name(f);
    if IsBayer(f) {
      assert n[..5] == "Bayer";
      if f == BayerBG8 || f == BayerBG10 || f == BayerBG12 {
        assert n[..7] == "BayerBG";
      } else {
        assert n[..7] == "BayerRG";
        assert n[..7] != "BayerBG" by {
          assert n[5] == 'R';
        }
      }
    } else {
      assert n[..5] != "Bayer" by {
        assert n[0] == 'M';
      }
    }
  }

  /** The simulated `PayloadSize`: `Width * Height * required_bit_depth // 8`,
      i.e. exactly the image bytes, with no descriptor slack. */
  function SimPayloadSize(width: nat, height: nat, name: string): (r: Result<nat, CatalogError>)
    ensures r.Ok? <==> Lookup(name).Some?
    ensures r.Err? ==> r.error == KeyError(name)
    ensures r.Ok? ==> r.value == width * height * Storage(Lookup(name).value).Bytes()
  {
    match RequiredBitDepth(name)
    case Err(e) => Err(e)
    case Ok(req) =>
      var f := Lookup(name).value;
      assert req == 8 * Storage(f).Bytes();
      assert width * height * req == 8 * (width * height * Storage(f).Bytes());
      Ok(width * height * req / 8)
  }
}

=== FILE: reconstruct.dfy ===
/** The bit-depth reconstruction applied to each decoded frame (convert.py)
    and the record-to-output step shared by both dump formats. Colour
    demosaicing and gain correction are not modelled: a colour frame is
    emitted as the mosaic buffer that would be handed to the demosaic. */
module Reconstruct {
  import opened Bytes
  import opened Text
  import opened PixelFormat

  /** numpy's `arr * coef` on a `uint8`/`uint16` array: the product wraps at
      the element width. It is exact whenever the product fits. */
  function Scale(v: nat, coef: nat, w: Width): (r: nat)
    ensures r < w.Modulus()
    ensures v * coef < w.Modulus() ==> r == v * coef
  {
    (v * coef) % w.Modulus()
  }

  function Clip(x: int, lo: int, hi: int): int
  {
    if x < lo then lo else if x > hi then hi else x
  }

  /** Converting to 8 bits applies when the storage is 16 bits and the
      target is not png (png keeps 16-bit samples). */
  predicate ToEightBit(w: Width, ext: string)
  {
    w == U16 && ext != "png"
  }

  /** One output sample of the simple-format still path: left-align, then for
      16-bit non-png `(x / 256).clip(0, 255)` truncated to `uint8`. */
  function StillPixel(v: nat, coef: nat, w: Width, ext: string): (r: nat)
    ensures ToEightBit(w, ext) ==> r <= 255
    ensures r < w.Modulus()
  {
    var s := Scale(v, coef, w);
    if ToEightBit(w, ext) then Clip(s / 256, 0, 255) else s
  }

  /** The GenDC still path: the same steps without the clip. */
  function GenDCStillPixel(v: nat, coef: nat, w: Width, ext: string): (r: nat)
    ensures ToEightBit(w, ext) ==> r <= 255
    ensures r < w.Modulus()
  {
    var s := Scale(v, coef, w);
    if ToEightBit(w, ext) then s / 256 else s
  }

  /** The clip never changes anything: a wrapped 16-bit product divided by
      256 is already below 256, so both still paths agree on every sample. */
  lemma ClipIsRedundant(v: nat, coef: nat, w: Width, ext: string)
    ensures StillPixel(v, coef, w, ext) == GenDCStillPixel(v, coef, w, ext)
    ensures ToEightBit(w, ext) ==> GenDCStillPixel(v, coef, w, ext) <= 255
  {
  }

  /** For an 8-bit format (coefficient 1) the reconstruction is the identity
      on every sample a `uint8` buffer can hold. */
  lemma EightBitIdentity(v: nat, ext: string)
    requires v < 256
    ensures StillPixel(v, 1, U8, ext) == v
  {
  }

  /** For a 16-bit storage format and a sample within its native depth, the
      8-bit output keeps exactly the top 8 native bits. */
  lemma TopEightBits(f: Format, v: nat, ext: string)
    requires Storage(f) == U16 && ext != "png"
    requires v < Pow2(Depth(f))
    ensures Depth(f) >= 8
    ensures StillPixel(v, Coef(f), U16, ext) == v / Pow2(Depth(f) - 8)
  {
    RequiredBitDepthValues(f);
    Pow2Values();
    match f
    case Mono10 =>
      assert Pow2(10) == 1024 && Coef(f) == 64 && Pow2(2) == 4;
    case BayerBG10 =>
      assert Pow2(10) == 1024 && Coef(f) == 64 && Pow2(2) == 4;
    case BayerRG10 =>
      assert Pow2(10) == 1024 && Coef(f) == 64 && Pow2(2) == 4;
    case Mono12 =>
      assert Pow2(12) == 4096 && Coef(f) == 16 && Pow2(4) == 16;
    case BayerBG12 =>
      assert Pow2(12) == 4096 && Coef(f) == 16 && Pow2(4) == 16;
    case BayerRG12 =>
      assert Pow2(12) == 4096 && Coef(f) == 16 && Pow2(4) == 16;
    case Mono16 =>
      assert Pow2(16) == 65536 && Coef(f) == 1 && Pow2(8) == 256;
  }

  /** For png a 16-bit sample within its native depth is left-aligned
      exactly: multiplied by the coefficient, with no wrap-around. */
  lemma PngLeftAligned(f: Format, v: nat)
    requires Storage(f) == U16
    requires v < Pow2(Depth(f))
    ensures StillPixel(v, Coef(f), U16, "png") == v * Coef(f)
  {
    CoefLeftAligns(f);
    RequiredBitDepthValues(f);
    Pow2Values();
    assert v * Coef(f) < Pow2(Depth(f)) * Coef(f);
  }

  /** numpy's `arr.reshape((height, width))` of a flat row-major buffer:
      row `i` is the `i`-th run of `width` samples. */
  function Reshape<T>(flat: seq<T>, height: nat, width: nat): (rows: seq<seq<T>>)
    requires |flat| == height * width
    ensures |rows| == height
    ensures forall i :: 0 <= i < height ==> rows[i] == Row(flat, height, width, i)
  {
    seq(height, i requires 0 <= i < height => Row(flat, height, width, i))
  }

  function Row<T>(flat: seq<T>, height: nat, width: nat, i: nat): (row: seq<T>)
    requires |flat| == height * width && i < height
    ensures i * width + width <= |flat| && row == flat[i * width .. i * width + width]
  {
    RowBound(i, height, width);
    flat[i * width .. i * width + width]
  }

  lemma RowBound(i: nat, height: nat, width: nat)
    requires i < height
    ensures i * width + width <= height * width
  {
    MulSplit(height - i - 1, i + 1, width);
    MulSplit(i, 1, width);
  }

  lemma MulSplit(a: int, b: int, w: int)
    ensures (a + b) * w == a * w + b * w
  {
  }

  /** Sample `(i, j)` of the reshaped image is flat sample `i * width + j`. */
  lemma ReshapeAt<T>(flat: seq<T>, height: nat, width: nat, i: nat, j: nat)
    requires |flat| == height * width && i < height && j < width
    ensures i * width + j < |flat|
    ensures Reshape(flat, height, width)[i][j] == flat[i * width + j]
  {
    RowBound(i, height, width);
  }

  /** The reshape is undone by concatenating the rows. */
  lemma {:induction false} ReshapeFlatten<T>(flat: seq<T>, height: nat, width: nat)
    requires |flat| == height * width
    ensures Flatten(Reshape(flat, height, width)) == flat
  {
    if height > 0 {
      MulSplit(height - 1, 1, width);
      var rest := flat[width..];
      ReshapeFlatten(rest, height - 1, width);
      var rows := Reshape(flat, height, width);
      var tail := Reshape(rest, height - 1, width);
      forall i | 0 <= i < height - 1
        ensures rows[1..][i] == tail[i]
      {
        MulSplit(i, 1, width);
      }
      assert rows[1..] == tail;
      assert rows[0] == flat[..width];
      assert flat == flat[..width] + rest;
    }
  }

  function Flatten<T>(rows: seq<seq<T>>): seq<T>
  {
    if |rows| == 0 then [] else rows[0] + Flatten(rows[1..])
  }

  function MapPixels(samples: seq<nat>, coef: nat, w: Width, ext: string, clipped: bool): (r: seq<nat>)
    ensures |r| == |samples|
  {
    seq(|samples|, i requires 0 <= i < |samples| =>
      if clipped then StillPixel(samples[i], coef, w, ext) else GenDCStillPixel(samples[i], coef, w, ext))
  }

  function ScaleAll(samples: seq<nat>, coef: nat, w: Width): (r: seq<nat>)
    ensures |r| == |samples|
    ensures forall i :: 0 <= i < |r| ==> r[i] < w.Modulus()
  {
    seq(|samples|, i requires 0 <= i < |samples| => Scale(samples[i], coef, w))
  }

  /** One decoded frame: its id and the sample slice read for it (which may
      be short of `width * height`). */
  datatype Record = Record(frameId: nat, samples: seq<nat>)

  /** What the conversion settings fix for every frame of a device. */
  datatype Render = Render(width: nat, height: nat, storage: Width, coef: nat, isColor: bool, ext: string)

  datatype Output =
    | StillImage(fileName: string, rows: seq<seq<nat>>)
    | MosaicImage(fileName: string, rows: seq<seq<nat>>)
    | RawFile(fileName: string, bytes: seq<Byte>)
    | VideoFrame(rows: seq<seq<nat>>)
    | MosaicVideoFrame(rows: seq<seq<nat>>)
    | IncompleteWarning(frameId: nat)

  /** `str(frame_id) + "." + extension` */
  function FileName(frameId: nat, ext: string): (name: string)
    ensures |name| > |ext| + 1 && EndsWith(name, "." + ext)
    ensures AllDigits(name[..|name| - |ext| - 1])
  {
    var name := NatToString(frameId) + "." + ext;
    assert name[|name| - |ext| - 1..] == "." + ext;
    assert name[..|name| - |ext| - 1] == NatToString(frameId);
    name
  }

  /** Distinct frame ids never share an output file. */
  lemma FileNameInjective(a: nat, b: nat, ext: string)
    requires FileName(a, ext) == FileName(b, ext)
    ensures a == b
  {
    var name := FileName(a, ext);
    assert name[..|name| - |ext| - 1] == NatToString(a);
    assert name[..|name| - |ext| - 1] == NatToString(b);
    DigitsValueOfNatToString(a);
    DigitsValueOfNatToString(b);
  }

  predicate Complete(rec: Record, cfg: Render)
  {
    |rec.samples| == cfg.width * cfg.height
  }

  /** The still-image step for one record (convert.py:136-159 for the simple
      format with `clipped`, 195-217 for GenDC without): an incomplete record
      only warns; `raw` writes the samples' bytes untouched; otherwise the
      left-aligned, possibly 8-bit, image is saved under the frame id. */
  function StillOutput(rec: Record, cfg: Render, clipped: bool): (out: Output)
    requires Fits(rec.samples, cfg.storage)
    ensures out.IncompleteWarning? <==> !Complete(rec, cfg)
    ensures out.IncompleteWarning? ==> out.frameId == rec.frameId
    ensures out.RawFile? <==> Complete(rec, cfg) && cfg.ext == "raw"
    ensures out.RawFile? ==> Decode(out.bytes, cfg.storage) == rec.samples
    ensures Complete(rec, cfg) ==> out.StillImage? || out.MosaicImage? || out.RawFile?
    ensures out.StillImage? || out.MosaicImage? || out.RawFile? ==>
      out.fileName == FileName(rec.frameId, cfg.ext)
    ensures out.StillImage? || out.MosaicImage? ==>
      |out.rows| == cfg.height &&
      Flatten(out.rows) == MapPixels(rec.samples, cfg.coef, cfg.storage, cfg.ext, clipped)
  {
    if !Complete(rec, cfg) then IncompleteWarning(rec.frameId)
    else if cfg.ext == "raw" then
      DecodeEncode(rec.samples, cfg.storage);
      RawFile(FileName(rec.frameId, cfg.ext), Encode(rec.samples, cfg.storage))
    else
      var pixels := MapPixels(rec.samples, cfg.coef, cfg.storage, cfg.ext, clipped);
      var rows := Reshape(pixels, cfg.height, cfg.width);
      ReshapeFlatten(pixels, cfg.height, cfg.width);
      if cfg.isColor then MosaicImage(FileName(rec.frameId, cfg.ext), rows)
      else StillImage(FileName(rec.frameId, cfg.ext), rows)
  }

  /** The clip of the simple path and its absence in the GenDC path make no
      difference to any output. */
  lemma StillPathsAgree(rec: Record, cfg: Render)
    requires Fits(rec.samples, cfg.storage)
    ensures StillOutput(rec, cfg, true) == StillOutput(rec, cfg, false)
  {
    forall i | 0 <= i < |rec.samples| {
      ClipIsRedundant(rec.samples[i], cfg.coef, cfg.storage, cfg.ext);
    }
    assert MapPixels(rec.samples, cfg.coef, cfg.storage, cfg.ext, true)
        == MapPixels(rec.samples, cfg.coef, cfg.storage, cfg.ext, false);
  }

  /** A mono 8-bit frame with coefficient 1 is written unchanged. */
  lemma StillIdentityForEightBit(rec: Record, cfg: Render)
    requires cfg.storage == U8 && cfg.coef == 1 && !cfg.isColor && cfg.ext != "raw"
    requires Fits(rec.samples, U8) && Complete(rec, cfg)
    ensures StillOutput(rec, cfg, true) ==
      StillImage(FileName(rec.frameId, cfg.ext), Reshape(rec.samples, cfg.height, cfg.width))
  {
    var pixels := MapPixels(rec.samples, 1, U8, cfg.ext, true);
    forall i | 0 <= i < |rec.samples|
      ensures pixels[i] == rec.samples[i]
    {
      EightBitIdentity(rec.samples[i], cfg.ext);
    }
    assert pixels == rec.samples;
  }

  /** The video step for one record of the simple format (convert.py:392-399):
      every complete record becomes exactly one left-aligned frame, with no
      8-bit conversion. */
  function VideoOutput(rec: Record, cfg: Render): (outs: seq<Output>)
    ensures |outs| == 1
    ensures outs[0].IncompleteWarning? <==> !Complete(rec, cfg)
    ensures outs[0].VideoFrame? || outs[0].MosaicVideoFrame? ==>
      |outs[0].rows| == cfg.height && Flatten(outs[0].rows) == ScaleAll(rec.samples, cfg.coef, cfg.storage)
    ensures outs[0].MosaicVideoFrame? <==> Complete(rec, cfg) && cfg.isColor
    ensures !Complete(rec, cfg) ==> outs[0] == IncompleteWarning(rec.frameId)
    ensures Complete(rec, cfg) && !cfg.isColor ==> outs[0].VideoFrame?
  {
    if !Complete(rec, cfg) then [IncompleteWarning(rec.frameId)]
    else
      var pixels := ScaleAll(rec.samples, cfg.coef, cfg.storage);
      ReshapeFlatten(pixels, cfg.height, cfg.width);
      var rows := Reshape(pixels, cfg.height, cfg.width);
      if cfg.isColor then [MosaicVideoFrame(rows)] else [VideoFrame(rows)]
  }

  /** The GenDC video step as written (convert.py:345-352): the
      `video_writer.write` call sits inside the colour branch, so a complete
      mono frame is never written. */
  function GenDCVideoOutputAsWritten(rec: Record, cfg: Render): (outs: seq<Output>)
    ensures |outs| <= 1
    ensures |outs| == 0 <==> Complete(rec, cfg) && !cfg.isColor
  {
    if !Complete(rec, cfg) then [IncompleteWarning(rec.frameId)]
    else
      var pixels := ScaleAll(rec.samples, cfg.coef, cfg.storage);
      var rows := Reshape(pixels, cfg.height, cfg.width);
      if cfg.isColor then [MosaicVideoFrame(rows)] else []
  }

  /** The discrepancy: for a complete mono frame the GenDC video path writes
      nothing where the simple path writes one frame; in every other case
      the two paths agree. */
  lemma GenDCMonoVideoDropsFrames(rec: Record, cfg: Render)
    ensures Complete(rec, cfg) && !cfg.isColor ==>
      GenDCVideoOutputAsWritten(rec, cfg) == [] && |VideoOutput(rec, cfg)| == 1 &&
      VideoOutput(rec, cfg)[0].VideoFrame?
    ensures !(Complete(rec, cfg) && !cfg.isColor) ==>
      GenDCVideoOutputAsWritten(rec, cfg) == VideoOutput(rec, cfg)
  {
  }
}

=== FILE: simple_scan.dfy ===
/** The fixed-stride "simple" raw-dump scanner of convert.py
    (`convert_single_img_bin_to_image` and `convert_single_img_bin_to_video`).
    A byte cursor locates each 4-byte frame id; a separate element offset,
    advanced by `slide + width * height` per record, locates the pixels. */
module SimpleScan {
  import opened Bytes
  import opened Reconstruct

  /** The per-device constants the scan is run with. */
  datatype Layout = Layout(width: nat, height: nat, payload: nat, storage: Width)
  {
    function ImgSize(): nat
    {
      width * height
    }

    /** `32 // required_bit`: how many elements the 4-byte id occupies. */
    function Slide(): nat
    {
      32 / storage.Bits()
    }
  }

  /** The image converter stops at `cursor >= size`, the video converter only
      at `size < position`. */
  datatype StopRule = ImageRule | VideoRule

  /** `len(d) * required_bit // 8`: the size of the whole-element part. */
  function FileSize(content: seq<Byte>, w: Width): (n: nat)
    ensures n <= |content| < n + w.Bytes()
  {
    |Decode(content, w)| * w.Bits() / 8
  }

  /** Byte position of record `k`'s frame id: each record moves the cursor
      by the 4-byte id plus the payload. */
  function IdAt(l: Layout, k: nat): nat
  {
    if k == 0 then 0 else IdAt(l, k - 1) + 4 + l.payload
  }

  /** Element index where record `k`'s id slot starts: each record moves the
      element offset by `slide + width * height`. */
  function ElementBase(l: Layout, k: nat): nat
  {
    if k == 0 then 0 else ElementBase(l, k - 1) + l.Slide() + l.ImgSize()
  }

  /** Element index of record `k`'s first pixel. */
  function OffsetAt(l: Layout, k: nat): nat
  {
    ElementBase(l, k) + l.Slide()
  }

  /** Closed forms: record `k`'s id is at byte `k * (4 + payload)` and its
      pixels at element `k * (slide + width * height) + slide`. */
  lemma {:induction false} LayoutClosedForm(l: Layout, k: nat)
    ensures IdAt(l, k) == k * (4 + l.payload)
    ensures OffsetAt(l, k) == k * (l.Slide() + l.ImgSize()) + l.Slide()
  {
    if k > 0 {
      LayoutClosedForm(l, k - 1);
      MulSplit(k - 1, 1, 4 + l.payload);
      MulSplit(k - 1, 1, l.Slide() + l.ImgSize());
    }
  }

  /** The loop reads an id at byte `c` of a file of `len` bytes whose
      whole-element part is `size` bytes: the rule lets the cursor through
      and a whole 4-byte id is left to read. */
  predicate Reads(size: nat, len: nat, rule: StopRule, c: nat)
  {
    (match rule
     case ImageRule => c < size
     case VideoRule => c <= size) &&
    c + 4 <= len
  }

  /** Record `k` is read. */
  predicate Continues(content: seq<Byte>, l: Layout, rule: StopRule, k: nat)
  {
    Reads(FileSize(content, l.storage), |content|, rule, IdAt(l, k))
  }

  /** Record `k` as the layout places it: the little-endian id at its byte
      cursor and up to `width * height` elements of `d` from its pixel
      offset. */
  function RecordAt(content: seq<Byte>, d: seq<nat>, l: Layout, k: nat): Record
    requires IdAt(l, k) + 4 <= |content|
  {
    ReadRecord(content, d, l, IdAt(l, k), ElementBase(l, k))
  }

  /** What one iteration reads: the little-endian id at the byte `cursor`,
      and up to `width * height` elements of `d` past the `slide` elements
      the id occupies from element `offset`. */
  function ReadRecord(content: seq<Byte>, d: seq<nat>, l: Layout, cursor: nat, offset: nat): (r: Record)
    requires cursor + 4 <= |content|
    ensures r.frameId < 0x1_0000_0000
    ensures |r.samples| <= l.ImgSize()
  {
    Pow256Four();
    Record(LeValue(content[cursor .. cursor + 4]), Window(d, offset + l.Slide(), l.ImgSize()))
  }

  /** The scan loop from iteration `i`, with the loop's own state: the byte
      `cursor` and the element `offset`; `d` is the file read as elements
      and `size` its whole-element byte size, both computed once before the
      loop. */
  function ScanFrom(content: seq<Byte>, d: seq<nat>, size: nat, l: Layout, rule: StopRule, limit: nat,
                    i: nat, cursor: nat, offset: nat): (recs: seq<Record>)
    requires i <= limit
    ensures |recs| <= limit - i
    decreases limit - i
  {
    if i == limit then []
    else if (match rule case ImageRule => cursor >= size case VideoRule => size < cursor) then []
    else if cursor + 4 > |content| then []
    else
      [ReadRecord(content, d, l, cursor, offset)] +
        ScanFrom(content, d, size, l, rule, limit, i + 1, cursor + 4 + l.payload, offset + l.Slide() + l.ImgSize())
  }

  /** The loop state at iteration `i` is where the layout puts record `i`. */
  ghost predicate AtRecord(l: Layout, i: nat, cursor: nat, offset: nat)
  {
    cursor == IdAt(l, i) && offset == ElementBase(l, i)
  }

  /** One iteration of the loop: it reads record `i` where the layout places
      it exactly when the record's id can be read. */
  lemma ScanFromStep(content: seq<Byte>, d: seq<nat>, size: nat, l: Layout, rule: StopRule, limit: nat,
                     i: nat, cursor: nat, offset: nat)
    requires i < limit && AtRecord(l, i, cursor, offset)
    ensures Reads(size, |content|, rule, cursor) ==>
      ScanFrom(content, d, size, l, rule, limit, i, cursor, offset) ==
        [RecordAt(content, d, l, i)] +
        ScanFrom(content, d, size, l, rule, limit, i + 1, cursor + 4 + l.payload, offset + l.Slide() + l.ImgSize())
    ensures !Reads(size, |content|, rule, cursor) ==> ScanFrom(content, d, size, l, rule, limit, i, cursor, offset) == []
  {
  }

  /** The state the loop moves to from record `i` is where the layout puts
      record `i + 1`. */
  lemma NextRecord(l: Layout, i: nat, cursor: nat, offset: nat)
    requires AtRecord(l, i, cursor, offset)
    ensures AtRecord(l, i + 1, cursor + 4 + l.payload, offset + l.Slide() + l.ImgSize())
  {
  }

  /** Record `k` of the loop started at iteration `i` is record `i + k` of
      the layout. */
  lemma {:induction false} ScanFromAt(content: seq<Byte>, d: seq<nat>, size: nat, l: Layout, rule: StopRule,
                                      limit: nat, i: nat, cursor: nat, offset: nat, k: nat)
    requires i <= limit && AtRecord(l, i, cursor, offset)
    requires k < |ScanFrom(content, d, size, l, rule, limit, i, cursor, offset)|
    ensures Reads(size, |content|, rule, IdAt(l, i + k))
    ensures ScanFrom(content, d, size, l, rule, limit, i, cursor, offset)[k] == RecordAt(content, d, l, i + k)
    decreases k
  {
    ScanFromStep(content, d, size, l, rule, limit, i, cursor, offset);
    var cursor', offset' := cursor + 4 + l.payload, offset + l.Slide() + l.ImgSize();
    var rest := ScanFrom(content, d, size, l, rule, limit, i + 1, cursor', offset');
    ConsIndex(ReadRecord(content, d, l, cursor, offset), rest, k);
    if k > 0 {
      NextRecord(l, i, cursor, offset);
      ScanFromAt(content, d, size, l, rule, limit, i + 1, cursor', offset', k - 1);
    }
  }

  /** Indexing into a sequence with one element put in front. */
  lemma ConsIndex<T>(h: T, t: seq<T>, k: nat)
    requires k <= |t|
    ensures ([h] + t)[k] == if k == 0 then h else t[k - 1]
  {
  }

  /** The loop started at iteration `i` ends at the first record whose id
      cannot be read, unless the iteration limit comes first. */
  lemma {:induction false} ScanFromEnd(content: seq<Byte>, d: seq<nat>, size: nat, l: Layout, rule: StopRule,
                                       limit: nat, i: nat, cursor: nat, offset: nat)
    requires i <= limit && AtRecord(l, i, cursor, offset)
    ensures var n := |ScanFrom(content, d, size, l, rule, limit, i, cursor, offset)|;
      i + n < limit ==> !Reads(size, |content|, rule, IdAt(l, i + n))
    decreases limit - i
  {
    if i < limit {
      ScanFromStep(content, d, size, l, rule, limit, i, cursor, offset);
      if Reads(size, |content|, rule, cursor) {
        NextRecord(l, i, cursor, offset);
        ScanFromEnd(content, d, size, l, rule, limit, i + 1, cursor + 4 + l.payload,
                    offset + l.Slide() + l.ImgSize());
      }
    }
  }

  /** The records one dump file yields: at most `limit` of them, record `k`
      read exactly where the layout places it, and the scan stops at the
      first record the cursor rule or the file end rejects. */
  function Scan(content: seq<Byte>, l: Layout, rule: StopRule, limit: nat): (recs: seq<Record>)
    ensures |recs| <= limit
    ensures forall k :: 0 <= k < |recs| ==>
              Continues(content, l, rule, k) && recs[k] == RecordAt(content, Decode(content, l.storage), l, k)
    ensures |recs| < limit ==> !Continues(content, l, rule, |recs|)
  {
    var d := Decode(content, l.storage);
    var size := FileSize(content, l.storage);
    var recs := ScanFrom(content, d, size, l, rule, limit, 0, 0, 0);
    forall k | 0 <= k < |recs|
      ensures Continues(content, l, rule, k) && recs[k] == RecordAt(content, d, l, k)
    {
      ScanFromAt(content, d, size, l, rule, limit, 0, 0, 0, k);
    }
    ScanFromEnd(content, d, size, l, rule, limit, 0, 0, 0);
    recs
  }

  /** Records whose slice is short are reported, never padded: a record's
      samples are exactly the decoded elements at its offset, as many as
      remain up to `width * height`. */
  lemma RecordSamples(content: seq<Byte>, l: Layout, rule: StopRule, limit: nat, k: nat)
    requires k < |Scan(content, l, rule, limit)|
    ensures var r := Scan(content, l, rule, limit)[k];
      var d := Decode(content, l.storage);
      Fits(r.samples, l.storage) &&
      |r.samples| <= l.ImgSize() &&
      (|r.samples| == l.ImgSize() <==> l.ImgSize() == 0 || OffsetAt(l, k) + l.ImgSize() <= |d|) &&
      |r.samples| == (if OffsetAt(l, k) >= |d| then 0
                      else if OffsetAt(l, k) + l.ImgSize() <= |d| then l.ImgSize()
                      else |d| - OffsetAt(l, k)) &&
      forall j :: 0 <= j < |r.samples| ==> r.samples[j] == d[OffsetAt(l, k) + j]
  {
  }

  /** Two scans are the same when both meet the characterisation of `Scan`. */
  lemma {:induction false} ScanUnique(content: seq<Byte>, l: Layout, r1: StopRule, r2: StopRule, limit: nat)
    requires forall k: nat :: Continues(content, l, r1, k) == Continues(content, l, r2, k)
    ensures Scan(content, l, r1, limit) == Scan(content, l, r2, limit)
  {
    var a := Scan(content, l, r1, limit);
    var b := Scan(content, l, r2, limit);
    assert |a| == |b|;
  }

  /** The image converter's `cursor >= size` and the video converter's
      `size < position` read exactly the same records: at `cursor == size`
      fewer than 4 bytes remain, so the id read ends the video scan there. */
  lemma {:induction false} StopRulesAgree(content: seq<Byte>, l: Layout, limit: nat)
    ensures Scan(content, l, ImageRule, limit) == Scan(content, l, VideoRule, limit)
  {
    forall k: nat
      ensures Continues(content, l, ImageRule, k) == Continues(content, l, VideoRule, k)
    {
    }
    ScanUnique(content, l, ImageRule, VideoRule, limit);
  }

  lemma MulCancel(k: nat, x: nat, y: nat)
    requires k > 0 && k * x == k * y
    ensures x == y
  {
  }

  /** The element offset meets the byte just after record `k`'s id, for
      every record after the first, exactly when the payload is the image
      size in bytes; with any other payload the two cursors drift apart. */
  lemma AlignedLayout(l: Layout, k: nat)
    requires k > 0
    ensures OffsetAt(l, k) * l.storage.Bytes() == IdAt(l, k) + 4 <==>
            l.payload == l.ImgSize() * l.storage.Bytes()
  {
    var b := l.storage.Bytes();
    var n := l.ImgSize();
    LayoutClosedForm(l, k);
    assert l.Slide() * b == 4 by { match l.storage case U8 => case U16 => }
    OffsetInBytes(k, l.Slide(), n, b);
    if k * (4 + n * b) == k * (4 + l.payload) {
      MulCancel(k, 4 + n * b, 4 + l.payload);
    }
  }

  /** Record `k`'s pixel offset in bytes, when the id slot of `slide`
      elements takes 4 bytes. */
  lemma OffsetInBytes(k: nat, slide: nat, n: nat, b: nat)
    requires slide * b == 4
    ensures (k * (slide + n) + slide) * b == k * (4 + n * b) + 4
  {
    MulSplit(k * (slide + n), slide, b);
    assert k * (slide + n) * b == k * ((slide + n) * b);
    MulSplit(slide, n, b);
  }

  /** Decode-then-encode round trip on the pixel payload: the bytes of a
      complete record's samples are exactly the file's bytes at its pixel
      offset (what a `raw` output writes back). */
  lemma RawRoundTrip(content: seq<Byte>, l: Layout, rule: StopRule, limit: nat, k: nat)
    requires k < |Scan(content, l, rule, limit)|
    requires l.ImgSize() > 0 && |Scan(content, l, rule, limit)[k].samples| == l.ImgSize()
    ensures var b := l.storage.Bytes();
      var start := OffsetAt(l, k) * b;
      start + l.ImgSize() * b <= |content| &&
      Fits(Scan(content, l, rule, limit)[k].samples, l.storage) &&
      Encode(Scan(content, l, rule, limit)[k].samples, l.storage) == content[start .. start + l.ImgSize() * b]
  {
    RecordSamples(content, l, rule, limit, k);
    WindowEncode(content, l.storage, OffsetAt(l, k), l.ImgSize());
  }

  /** The still-image conversion of one simple dump file: one output per
      record read, in file order. */
  function ImagesOf(content: seq<Byte>, l: Layout, limit: nat, cfg: Render): (outs: seq<Output>)
    requires cfg.width == l.width && cfg.height == l.height && cfg.storage == l.storage
    ensures |outs| == |Scan(content, l, ImageRule, limit)|
    ensures forall k :: 0 <= k < |outs| ==>
              var r := Scan(content, l, ImageRule, limit)[k];
              Fits(r.samples, l.storage) && outs[k] == StillOutput(r, cfg, true)
  {
    var recs := Scan(content, l, ImageRule, limit);
    forall k | 0 <= k < |recs|
      ensures Fits(recs[k].samples, l.storage)
    {
      RecordSamples(content, l, ImageRule, limit, k);
    }
    seq(|recs|, k requires 0 <= k < |recs| => StillOutput(recs[k], cfg, true))
  }

  /** The video conversion of one simple dump file: one frame or warning per
      record read, in file order. */
  function VideoOf(content: seq<Byte>, l: Layout, limit: nat, cfg: Render): (outs: seq<Output>)
    requires cfg.width == l.width && cfg.height == l.height && cfg.storage == l.storage
    ensures |outs| == |Scan(content, l, VideoRule, limit)|
    ensures forall k :: 0 <= k < |outs| ==>
              outs[k] == VideoOutput(Scan(content, l, VideoRule, limit)[k], cfg)[0]
  {
    var recs := Scan(content, l, VideoRule, limit);
    seq(|recs|, k requires 0 <= k < |recs| => VideoOutput(recs[k], cfg)[0])
  }

  /** An 8-bit dump holding one id and at most one payload of pixels
      yields exactly one record: that id, and the pixels present (all of
      them, short or not), whichever stop rule the converter uses. */
  lemma SingleRecord(id: seq<Byte>, pixels: seq<Byte>, l: Layout, rule: StopRule, limit: nat)
    requires |id| == 4 && l.storage == U8 && limit > 0
    requires |pixels| <= l.ImgSize() && |pixels| <= l.payload
    ensures Scan(id + pixels, l, rule, limit) == [Record(LeValue(id), Decode(pixels, U8))]
  {
    var content := id + pixels;
    var d := Decode(content, U8);
    var size := FileSize(content, U8);
    assert size == |content|;
    var next, offset := 4 + l.payload, l.Slide() + l.ImgSize();
    assert IdAt(l, 1) == next && ElementBase(l, 1) == offset;
    assert Continues(content, l, rule, 0);
    assert !Continues(content, l, rule, 1);
    ScanFromStep(content, d, size, l, rule, limit, 0, 0, 0);
    if limit > 1 {
      NextRecord(l, 0, 0, 0);
      ScanFromStep(content, d, size, l, rule, limit, 1, next, offset);
    }
    assert ScanFrom(content, d, size, l, rule, limit, 1, next, offset) == [];
    assert content[0..4] == id;
    var w := Window(d, OffsetAt(l, 0), l.ImgSize());
    assert OffsetAt(l, 0) == 4;
    assert |w| == |pixels|;
    forall j | 0 <= j < |w|
      ensures w[j] == Decode(pixels, U8)[j]
    {
      assert content[4 + j] == pixels[j];
    }
    assert w == Decode(pixels, U8);
  }

  /** The worked example: a 2x2 Mono8 dump holding id bytes `01 00 00 00`
      and pixels `a b c e` is saved as `1.jpg` showing `[[a, b], [c, e]]`. */
  lemma TwoByTwoImage(a: Byte, b: Byte, c: Byte, e: Byte)
    ensures ImagesOf([1, 0, 0, 0, a, b, c, e], Layout(2, 2, 4, U8), 60, Render(2, 2, U8, 1, false, "jpg")) ==
      [StillImage("1.jpg", [[a as nat, b as nat], [c as nat, e as nat]])]
  {
    var id: seq<Byte> := [1, 0, 0, 0];
    var pixels: seq<Byte> := [a, b, c, e];
    var l := Layout(2, 2, 4, U8);
    assert [1, 0, 0, 0, a, b, c, e] == id + pixels;
    SingleRecord(id, pixels, l, ImageRule, 60);
    assert LeValue(id) == 1;
    var flat: seq<nat> := [a as nat, b as nat, c as nat, e as nat];
    assert Decode(pixels, U8) == flat;
    var cfg := Render(2, 2, U8, 1, false, "jpg");
    var r := Record(1, flat);
    StillIdentityForEightBit(r, cfg);
    var rows := Reshape(flat, 2, 2);
    assert rows[0] == Row(flat, 2, 2, 0) == flat[0 .. 2] == [a as nat, b as nat];
    assert rows[1] == Row(flat, 2, 2, 1) == flat[2 .. 4] == [c as nat, e as nat];
    assert rows == [[a as nat, b as nat], [c as nat, e as nat]];
    assert FileName(1, "jpg") == "1.jpg";
  }

  /** A record with only 3 of its 4 samples present is reported as
      incomplete and produces no image. */
  lemma IncompleteExample(a: Byte, b: Byte, c: Byte)
    ensures ImagesOf([1, 0, 0, 0, a, b, c], Layout(2, 2, 4, U8), 60, Render(2, 2, U8, 1, false, "jpg")) ==
      [IncompleteWarning(1)]
  {
    var id: seq<Byte> := [1, 0, 0, 0];
    var pixels: seq<Byte> := [a, b, c];
    assert [1, 0, 0, 0, a, b, c] == id + pixels;
    SingleRecord(id, pixels, Layout(2, 2, 4, U8), ImageRule, 60);
    assert LeValue(id) == 1;
  }
}

=== FILE: text.dfy ===
/** The few Python string operations the converter relies on: `str(n)`,
    `int(s)`, `s.startswith(p)`, `s.endswith(p)` and `s.replace(pat, rep)`. */
module Text {
  import opened Wrappers

  predicate IsDigit(c: char)
  {
    '0' <= c <= '9'
  }

  predicate AllDigits(s: string)
  {
    forall i :: 0 <= i < |s| ==> IsDigit(s[i])
  }

  predicate StartsWith(s: string, p: string)
  {
    |p| <= |s| && s[..|p|] == p
  }

  predicate EndsWith(s: string, p: string)
  {
    |p| <= |s| && s[|s| - |p|..] == p
  }

  /** `pat` occurs in `s` starting at position `i`. */
  predicate MatchAt(s: string, pat: string, i: nat)
  {
    i + |pat| <= |s| && s[i .. i + |pat|] == pat
  }

  /** `pat` occurs nowhere in `s`. */
  predicate NoOccurrence(s: string, pat: string)
  {
    forall i: nat :: i < |s| ==> !MatchAt(s, pat, i)
  }

  function DigitChar(d: nat): (c: char)
    requires d < 10
    ensures IsDigit(c)
  {
    "0123456789"[d]
  }

  function DigitValue(c: char): (d: nat)
    requires IsDigit(c)
    ensures d < 10
  {
    (c as int - '0' as int) as nat
  }

  /** Python's `str(n)` for a non-negative integer: shortest decimal form. */
  function NatToString(n: nat): (s: string)
    ensures |s| >= 1 && AllDigits(s)
    ensures s[0] == '0' <==> n == 0
    decreases n
  {
    if n < 10 then [DigitChar(n)] else NatToString(n / 10) + [DigitChar(n % 10)]
  }

  /** Python's `str(i)` for any integer. */
  function IntToString(i: int): (s: string)
    ensures |s| >= 1
    ensures s[0] == '-' <==> i < 0
    ensures s[0] == '0' <==> i == 0
  {
    if i < 0 then "-" + NatToString(-i) else NatToString(i)
  }

  /** The value of a string of decimal digits (leading zeros allowed). */
  function DigitsValue(s: string): nat
    requires AllDigits(s)
  {
    if |s| == 0 then 0 else 10 * DigitsValue(s[..|s| - 1]) + DigitValue(s[|s| - 1])
  }

  lemma {:induction false} DigitsValueOfNatToString(n: nat)
    ensures DigitsValue(NatToString(n)) == n
    decreases n
  {
    var s := NatToString(n);
    if n >= 10 {
      DigitsValueOfNatToString(n / 10);
      assert s[..|s| - 1] == NatToString(n / 10);
    }
  }

  datatype ParseError = NotAnInteger(text: string)

  /** Python's `int(s)` on an optional sign followed by decimal digits;
      anything else raises `ValueError`, modelled as `Err`. */
  function ParseInt(s: string): (r: Result<int, ParseError>)
    ensures r.Ok? <==>
      (|s| > 0 && AllDigits(s)) ||
      (|s| > 1 && (s[0] == '-' || s[0] == '+') && AllDigits(s[1..]))
  {
    if |s| > 0 && (s[0] == '-' || s[0] == '+') then
      var body := s[1..];
      if |body| > 0 && AllDigits(body) then
        var v: int := DigitsValue(body);
        Ok(if s[0] == '-' then -v else v)
      else Err(NotAnInteger(s))
    else if |s| > 0 && AllDigits(s) then Ok(DigitsValue(s))
    else Err(NotAnInteger(s))
  }

  /** `int(str(i)) == i` */
  lemma ParseIntOfIntToString(i: int)
    ensures ParseInt(IntToString(i)) == Ok(i)
  {
    var s := IntToString(i);
    if i < 0 {
      var n := NatToString(-i);
      DigitsValueOfNatToString(-i);
      assert s[1..] == n;
      assert DigitsValue(s[1..]) == -i;
    } else {
      DigitsValueOfNatToString(i);
      assert IsDigit(s[0]);
      assert ParseInt(s) == Ok(DigitsValue(s));
    }
  }

  /** Python's `s.replace(pat, rep)`: every non-overlapping occurrence of `pat`,
      found left to right, becomes `rep`; an empty `pat` inserts `rep` around
      every character. */
  function Replace(s: string, pat: string, rep: string): (r: string)
    ensures |pat| > 0 && |rep| == |pat| ==> |r| == |s|
    ensures |pat| > 0 && |rep| <= |pat| ==> |r| <= |s|
    ensures |pat| == 0 ==> |r| == |s| + (|s| + 1) * |rep|
    decreases |s|
  {
    if |pat| == 0 then
      if |s| == 0 then rep else rep + [s[0]] + Replace(s[1..], pat, rep)
    else if |s| < |pat| then s
    else if s[..|pat|] == pat then rep + Replace(s[|pat|..], pat, rep)
    else [s[0]] + Replace(s[1..], pat, rep)
  }

  /** Replacing a pattern that does not occur changes nothing. */
  lemma {:induction false} ReplaceAbsent(s: string, pat: string, rep: string)
    requires |pat| > 0 && NoOccurrence(s, pat)
    ensures Replace(s, pat, rep) == s
    decreases |s|
  {
    if |s| >= |pat| {
      assert !MatchAt(s, pat, 0);
      assert s[0 .. |pat|] == s[..|pat|];
      var t := s[1..];
      forall i: nat | i < |t|
        ensures !MatchAt(t, pat, i)
      {
        assert !MatchAt(s, pat, i + 1);
        if i + |pat| <= |t| {
          assert t[i .. i + |pat|] == s[i + 1 .. i + 1 + |pat|];
        }
      }
      ReplaceAbsent(t, pat, rep);
      assert s == [s[0]] + t;
    }
  }

  /** The first character of `p` occurs nowhere else in `p`, so no two
      occurrences of `p` can overlap a shifted copy of `p`. */
  predicate UniqueHead(p: string)
  {
    |p| > 0 && forall i :: 1 <= i < |p| ==> p[i] != p[0]
  }

  /** With a pattern whose head is unique, an occurrence placed between two
      strings is replaced, and each side is rewritten on its own. */
  lemma {:induction false} ReplaceAround(a: string, pat: string, rep: string, b: string)
    requires UniqueHead(pat)
    ensures Replace(a + pat + b, pat, rep) == Replace(a, pat, rep) + rep + Replace(b, pat, rep)
    decreases |a|
  {
    var n := |pat|;
    if |a| == 0 {
      var s := a + pat + b;
      assert s == pat + b;
      assert s[..n] == pat;
      assert s[n..] == b;
    } else if |a| >= n && a[..n] == pat {
      ReplaceAround(a[n..], pat, rep, b);
      ReplaceAroundMatch(a, pat, rep, b);
    } else {
      ReplaceAround(a[1..], pat, rep, b);
      ReplaceAroundSkip(a, pat, rep, b);
    }
  }

  /** The step of `ReplaceAround` when `a` starts with an occurrence. */
  lemma ReplaceAroundMatch(a: string, pat: string, rep: string, b: string)
    requires |pat| > 0 && |a| >= |pat| && a[..|pat|] == pat
    requires Replace(a[|pat|..] + pat + b, pat, rep) == Replace(a[|pat|..], pat, rep) + rep + Replace(b, pat, rep)
    ensures Replace(a + pat + b, pat, rep) == Replace(a, pat, rep) + rep + Replace(b, pat, rep)
  {
    var n := |pat|;
    SplitAt(a, pat, b, n);
    ReplaceMatch(a + pat + b, pat, rep);
    ReplaceMatch(a, pat, rep);
    PrefixAssoc(rep, Replace(a[n..], pat, rep), rep, Replace(b, pat, rep));
  }

  /** Where an occurrence starts, it is replaced and the scan resumes after it. */
  lemma ReplaceMatch(s: string, pat: string, rep: string)
    requires |pat| > 0 && |s| >= |pat| && s[..|pat|] == pat
    ensures Replace(s, pat, rep) == rep + Replace(s[|pat|..], pat, rep)
  {
  }

  /** Cutting `a + p + t` inside `a`. */
  lemma SplitAt<T>(a: seq<T>, p: seq<T>, t: seq<T>, n: nat)
    requires n <= |a|
    ensures (a + p + t)[..n] == a[..n] && (a + p + t)[n..] == a[n..] + p + t
  {
  }

  lemma PrefixAssoc<T>(h: seq<T>, x: seq<T>, r: seq<T>, y: seq<T>)
    ensures h + (x + r + y) == (h + x) + r + y
  {
  }

  /** The step of `ReplaceAround` when `a` does not start with an
      occurrence: its first character is kept. */
  lemma ReplaceAroundSkip(a: string, pat: string, rep: string, b: string)
    requires UniqueHead(pat) && |a| > 0 && !(|a| >= |pat| && a[..|pat|] == pat)
    requires Replace(a[1..] + pat + b, pat, rep) == Replace(a[1..], pat, rep) + rep + Replace(b, pat, rep)
    ensures Replace(a + pat + b, pat, rep) == Replace(a, pat, rep) + rep + Replace(b, pat, rep)
  {
    var s := a + pat + b;
    var n := |pat|;
    if |a| < n {
      NoEarlyMatch(a, pat, b);
      ReplaceShort(a, pat, rep);
      ReplaceShort(a[1..], pat, rep);
      assert a == [a[0]] + a[1..];
    } else {
      assert s[..n] == a[..n];
      ReplaceHead(a, pat, rep);
    }
    SkipHead(a, pat, rep, b);
  }

  /** Keeping the head of `a + pat + b` keeps the head of `a`. */
  lemma SkipHead(a: string, pat: string, rep: string, b: string)
    requires |pat| > 0 && |a| > 0 && (a + pat + b)[..|pat|] != pat
    requires Replace(a, pat, rep) == [a[0]] + Replace(a[1..], pat, rep)
    requires Replace(a[1..] + pat + b, pat, rep) == Replace(a[1..], pat, rep) + rep + Replace(b, pat, rep)
    ensures Replace(a + pat + b, pat, rep) == Replace(a, pat, rep) + rep + Replace(b, pat, rep)
  {
    ReplaceHead(a + pat + b, pat, rep);
    HeadTail(a, pat, b);
    PrefixAssoc([a[0]], Replace(a[1..], pat, rep), rep, Replace(b, pat, rep));
  }

  /** The first element and the rest of `a + p + t` for a non-empty `a`. */
  lemma HeadTail<T>(a: seq<T>, p: seq<T>, t: seq<T>)
    requires |a| > 0
    ensures (a + p + t)[0] == a[0] && (a + p + t)[1..] == a[1..] + p + t
  {
  }

  /** A string shorter than the pattern is left alone. */
  lemma ReplaceShort(s: string, pat: string, rep: string)
    requires |s| < |pat|
    ensures Replace(s, pat, rep) == s
  {
  }

  /** Where no occurrence starts, the first character is kept. */
  lemma ReplaceHead(s: string, pat: string, rep: string)
    requires |pat| > 0 && |s| >= |pat| && s[..|pat|] != pat
    ensures Replace(s, pat, rep) == [s[0]] + Replace(s[1..], pat, rep)
  {
  }

  /** Removing a pattern that occurs only at the end leaves what precedes it. */
  lemma ReplaceTrailing(s: string, pat: string)
    requires UniqueHead(pat) && NoOccurrence(s, pat)
    ensures Replace(s + pat, pat, "") == s
  {
    calc {
      Replace(s + pat, pat, "");
      { assert s + pat + [] == s + pat;
        ReplaceAround(s, pat, "", []); }
      Replace(s, pat, "") + "" + Replace([], pat, "");
      { ReplaceAbsent(s, pat, ""); }
      s;
    }
  }

  /** The same, when the pattern's first character does not occur before it. */
  lemma ReplaceTrailingByHead(s: string, pat: string)
    requires UniqueHead(pat) && forall i :: 0 <= i < |s| ==> s[i] != pat[0]
    ensures Replace(s + pat, pat, "") == s
  {
    NoOccurrenceByHead(s, pat);
    ReplaceTrailing(s, pat);
  }

  /** A match cannot start inside `a` and end inside the following `pat`. */
  lemma NoEarlyMatch(a: string, pat: string, b: string)
    requires UniqueHead(pat) && 0 < |a| < |pat|
    ensures (a + pat + b)[..|pat|] != pat
  {
    var s := a + pat + b;
    assert s[|a|] == pat[0];
    assert pat[|a|] != pat[0];
  }

  /** A pattern cannot occur where its first character does not: no
      position with room for a match holds that character. */
  lemma NoOccurrenceByHead(s: string, pat: string)
    requires |pat| > 0
    requires forall i :: 0 <= i < |s| && i + |pat| <= |s| ==> s[i] != pat[0]
    ensures NoOccurrence(s, pat)
  {
    forall i: nat | i < |s|
      ensures !MatchAt(s, pat, i)
    {
      if i + |pat| <= |s| {
        assert s[i .. i + |pat|][0] == s[i];
      }
    }
  }
}

=== FILE: wrappers.dfy ===
/** Option and Result, the failure-carrying values used throughout the model
    for Python's `None` results, `KeyError`s and caught exceptions. */
module Wrappers {

  datatype Option<+T> = None | Some(value: T)

  datatype Result<+R, +E> = Ok(value: R) | Err(error: E)
}
